=== FILE: README.md ===
# Eureka interactive-lesson core, modelled in Dafny

Eureka is a set of browser lessons. Most of it is presentation. Four parts of
it hold sequential logic, and this project models those four as immutable
state records with pure transition functions over event sequences:

- **The handwriting capture modal** (`handwriting_modal.dfy`). A canvas the
  student writes on, with the React flags `isDrawing` and `hasDrawing`. The
  bitmap is reduced to its size, pen style, the list of segments stroked
  since the last erase, and a path cursor (`None` after `beginPath()`).
  - The model keeps the render-closure behaviour: the `draw` called by
    `startDrawing` sees the `isDrawing` from before the press.
  - It keeps the canvas rule that `lineTo` on an empty path only places the pen.
  - It keeps what assigning `canvas.width`/`height` does: the Web IDL
    `unsigned long` conversion, then the HTML reflection rule that replaces
    a value above 2^31 - 1 with the default of 300 by 150.
  - Confirming emits the data URL of the canvas: `data:,` when the bitmap
    has no pixels, otherwise the PNG data URL.
- **The recognition hook** (`handwriting_recognition.dfy`). It covers the key
  check, stripping the data-URL header with `split(',')[1]`, the request sent
  to the vision model, and reducing the reply or the thrown error. The call
  is split at its `await` into `Begin` and `Finish`, so overlapping calls can
  be interleaved.
- **The audio level hook** (`audio_analyzer.dfy`). The per-frame level is
  `min(mean(bins)/100, 1)` over 128 byte bins, in exact `real` arithmetic.
  The attach/teardown lifecycle tracks audio contexts, `close()` calls,
  the frame ref and the set of animation-frame callbacks the host has
  scheduled. Unmounting runs the same cleanup as a change to a null stream.
- **The one-mole-of-oxygen lesson** (`mole_lesson.dfy`). It covers the view
  toggle, the slider guard, the derived quantities, and the agent challenge.
  The challenge's two `setTimeout` callbacks are events that can only fire
  once scheduled, and nothing cancels them. The amount is kept as a whole
  number of tenths of a mole.

Supporting modules:

- `js_string.dfy` gives `split`, `includes` and `trim` as ECMAScript defines them.
- `data_url.dfy` gives the `data:` URL of section 3 of RFC 2397, with the
  base 64 alphabet of section 4 of RFC 4648.
- `trace.dfy` gives event traces and a generic "latch" lemma. The lemma
  characterises a flag that one kind of event raises and another resets.
- `wrappers.dfy` gives `Option`.

The model follows the code as written, including these behaviours:

- There is no re-entrancy guard: a second recognition can start while one is
  in flight. When the first settles, `isRecognizing` falls although the
  second is still waiting, and an error from the first outlives a later
  success (`HandwritingRecognition.OverlappingCalls`).
- An empty or absent reply returns `null` and leaves `error` unset
  (`EmptyReplyIsNotAnError`). A reply of only white space returns `""`
  (`WhiteSpaceReplyReturnsEmpty`).
- `clearCanvas` erases the bitmap but does not end a stroke in progress:
  `isDrawing` is untouched (`HandwritingModal.ClearCanvas`,
  `IsDrawingIffPressSinceRelease`).
- A press paints nothing and does not move the cursor, because the `draw`
  it calls still sees `isDrawing` false. The first move only places the pen
  (`StrokesDoNotConnect`).
- The sizing effect runs only when `isOpen` changes. On reopen the canvas is
  blank but `hasDrawing` survives, so confirm stays enabled over an empty
  bitmap (`ReopenKeepsHasDrawing`).
- Leaving the agent challenge does not cancel its timers: the agent can
  still take the slider and change the amount afterwards
  (`MoleLesson.ExitLeavesTimersRunning`).

## Model

| member | source | states |
|---|---|---|
| JsString.Split | hooks/useHandwritingRecognition.ts:33 | `split` with a one-character separator gives at least one piece; no piece holds the separator; joining the pieces with it rebuilds the input; there is exactly one piece iff the separator does not occur |
| JsString.SplitJoin | hooks/useHandwritingRecognition.ts:33 | splitting the join of separator-free pieces returns those pieces: `split` inverts `join` |
| JsString.Trim | hooks/useHandwritingRecognition.ts:50 | `trim` returns an infix of the input with only white space around it in the input and no white space at either end of itself; it is empty iff the input is all white space |
| JsString.TrimIdempotent | hooks/useHandwritingRecognition.ts:50 | trimming a trimmed reply changes nothing |
| DataUrl.PngDataUrl | components/HandwritingModal.tsx:101 | `toDataURL('image/png')` is the header `data:image/png;base64`, one comma, then the payload |
| DataUrl.Payload | hooks/useHandwritingRecognition.ts:33 | element 1 of the split on `','` exists iff the URL holds a comma, and it never holds a comma itself |
| DataUrl.PayloadAfterHeader | hooks/useHandwritingRecognition.ts:32-33 | for a comma-free header and a comma-free body, the payload of `header + "," + body` is the body |
| DataUrl.PngDataUrlRoundTrip | components/HandwritingModal.tsx:101-102 | stripping the header from the URL the canvas emits gives back exactly the encoded image |
| DataUrl.EmptyDataUrlPayload | hooks/useHandwritingRecognition.ts:33 | the payload of the `data:,` URL of an empty bitmap is the empty string |
| HandwritingModal.ToUnsignedLong | components/HandwritingModal.tsx:26-27 | the Web IDL conversion of an assigned size: below 2^32; the floor of a size in [0, 2^32); 0 for a size in (-1, 0); 2^32 minus the truncated magnitude for a negative size down to -2^32 |
| HandwritingModal.CanvasDimension | components/HandwritingModal.tsx:26-27 | the size the canvas takes: the floor of a box size in [0, 2^31); the default for a size in [2^31, 2^32) or in (-2^31, -1]; 0 for a size in (-1, 0); never above 2^31 - 1 except as the default |
| HandwritingModal.SizedCanvas | components/HandwritingModal.tsx:19-37 | opening sizes the canvas to the floored container box (300 wide or 150 high when a side reaches 2^31), never above 2^31 - 1, and sets round cap, round join, ink `#fff`, width 4, on a blank bitmap with an empty path |
| HandwritingModal.Open | components/HandwritingModal.tsx:19-20 | `isOpen` turning true mounts a freshly sized canvas; an open surface is left alone; all three flags survive |
| HandwritingModal.Close | components/HandwritingModal.tsx:106 | closing unmounts the canvas and keeps all three flags |
| HandwritingModal.Draw | components/HandwritingModal.tsx:54-81 | not drawing (or no canvas): nothing changes. Drawing: the cursor moves to the client point minus the canvas box's left/top (first touch for touch input). A segment from the old cursor to it is added iff there was a cursor. Size, style and flags are kept |
| HandwritingModal.StartDrawing | components/HandwritingModal.tsx:39-43 | both flags rise; the inner draw uses the pre-press `isDrawing`, so a press after a release leaves the canvas untouched |
| HandwritingModal.StopDrawing | components/HandwritingModal.tsx:45-52 | `isDrawing` falls and the path is emptied; bitmap and `hasDrawing` are kept |
| HandwritingModal.ClearCanvas | components/HandwritingModal.tsx:83-92 | with a canvas, every segment is erased and `hasDrawing` falls while `isDrawing`, the path and the size are kept; without a canvas nothing happens |
| HandwritingModal.ToDataUrl | components/HandwritingModal.tsx:101 | `toDataURL` gives `data:,` exactly when the bitmap has no pixels, and otherwise a URL starting with the PNG header |
| HandwritingModal.ToDataUrlPayload | hooks/useHandwritingRecognition.ts:33 | the part of the canvas's data URL after the comma, which the recognizer sends, is the PNG encoding of the bitmap, and empty when the bitmap has no pixels |
| HandwritingModal.HandleConfirm | components/HandwritingModal.tsx:94-104 | a URL is produced iff the canvas exists; it is the canvas's data URL |
| HandwritingModal.Next | components/HandwritingModal.tsx:135-161 | after any event, `hasDrawing` = pressed or (had it and not cleared); `isDrawing` = pressed or (had it and not released); a move while not drawing, and any pointer event while the canvas is not rendered, change nothing; a click on the disabled clear button changes nothing, and an enabled clear erases every segment; confirm and close clicks leave the surface as it is; an `isProcessing` change sets only that flag |
| HandwritingModal.Emit | components/HandwritingModal.tsx:117-161 | an image is emitted iff confirm is clicked on an open canvas with `hasDrawing && !isProcessing`, and it is that canvas's data URL; a close request is emitted iff close is clicked on an open modal while not processing |
| HandwritingModal.HasDrawingIffPressSinceClear | components/HandwritingModal.tsx:83-92 | over any event trace, `hasDrawing` holds iff a press landed since the last effective clear (or it held at the start and nothing cleared it) |
| HandwritingModal.IsDrawingIffPressSinceRelease | components/HandwritingModal.tsx:39-52 | over any event trace, `isDrawing` holds iff a press landed since the last release; clears play no part |
| HandwritingModal.StrokesDoNotConnect | components/HandwritingModal.tsx:45-81 | after release, press, move, the bitmap is unchanged and the cursor is at the move's point; a second move adds exactly the segment between the two move points |
| HandwritingModal.ReopenKeepsHasDrawing | components/HandwritingModal.tsx:16-37 | closing and reopening blanks the canvas but leaves confirm enabled |
| HandwritingModal.ConfirmEmitsOnce | components/HandwritingModal.tsx:94-104 | one enabled confirm click emits exactly one image, the data URL of the canvas |
| HandwritingModal.ImagesMatchConfirms | components/HandwritingModal.tsx:159-161 | over any trace, the number of images emitted equals the number of confirm clicks made while confirm was enabled on an open canvas |
| HandwritingRecognition.RequestFor | hooks/useHandwritingRecognition.ts:33-46 | the request names model `gemini-2.5-flash`, the fixed instruction and `image/png`; it carries data iff the image URL holds a comma |
| HandwritingRecognition.Begin | hooks/useHandwritingRecognition.ts:14-20 | a falsy key gives the key-missing error with `isRecognizing` untouched and no request. Otherwise `isRecognizing` rises, the error clears and the request goes out. Nothing checks for a call in flight |
| HandwritingRecognition.ErrorMessage | hooks/useHandwritingRecognition.ts:55-61 | a message mentioning `404` maps to the not-ready text, else to the message if non-empty, else to the fallback text; never empty |
| HandwritingRecognition.Finish | hooks/useHandwritingRecognition.ts:48-65 | `isRecognizing` always ends false. A reply returns the trimmed text iff the text is truthy, and leaves the error alone. A thrown error sets the classified message and returns null |
| HandwritingRecognition.Recognize | hooks/useHandwritingRecognition.ts:13-66 | one call: with no key, null, the key error, no request and no `isRecognizing` change. With a key, `isRecognizing` goes true then false, exactly one request is sent, and the error is set iff the call threw. The value is non-null iff the reply text is truthy |
| HandwritingRecognition.RequestCarriesCanvasPayload | hooks/useHandwritingRecognition.ts:33-42 | the request for the surface's URL carries exactly the canvas's encoded image |
| HandwritingRecognition.WhiteSpaceReplyReturnsEmpty | hooks/useHandwritingRecognition.ts:50 | a reply of only white space returns `""`, not null |
| HandwritingRecognition.EmptyReplyIsNotAnError | hooks/useHandwritingRecognition.ts:50 | an empty or absent reply returns null and sets no error |
| HandwritingRecognition.OverlappingCalls | hooks/useHandwritingRecognition.ts:13-20 | two calls can be in flight at once; the first settling lowers `isRecognizing` while the second still waits; a first call's error survives the second's success |
| AudioAnalyzer.SumZeroIff | hooks/useAudioAnalyzer.ts:33-36 | the bin sum is zero iff every bin is zero |
| AudioAnalyzer.Level | hooks/useAudioAnalyzer.ts:33-40 | the level lies in [0, 1]; it is 1 iff the mean bin reaches 100; it is 0 iff every bin is 0 |
| AudioAnalyzer.LevelMonotone | hooks/useAudioAnalyzer.ts:33-40 | raising bins never lowers the level |
| AudioAnalyzer.MeanBounded | hooks/useAudioAnalyzer.ts:33-40 | the mean bin value lies in [0, 255], and a spectrum whose every bin is at least 100 shows the full level |
| AudioAnalyzer.ComputeLevel | hooks/useAudioAnalyzer.ts:29-40 | the summing loop over the 128 bins followed by the capped ratio computes `Level` |
| AudioAnalyzer.Tick | hooks/useAudioAnalyzer.ts:29-44 | a tick publishes exactly one value, its level for that tick's bins, and adds exactly one new frame id to the scheduled set, which the ref then names; contexts are untouched |
| AudioAnalyzer.Attach | hooks/useAudioAnalyzer.ts:10-46 | attaching creates one open context held by the ref, schedules one frame and publishes the first level at once |
| AudioAnalyzer.Teardown | hooks/useAudioAnalyzer.ts:48-64 | teardown removes the frame the ref names (when truthy) from the scheduled set and calls `close()` once iff the held context is not closed. It always nulls the context ref. No other context and no published level changes |
| AudioAnalyzer.Next | hooks/useAudioAnalyzer.ts:10-65 | an unchanged stream and a frame whose callback is not scheduled change nothing; a scheduled frame publishes its level and is replaced by the next id |
| AudioAnalyzer.ScheduledFrameTicks | hooks/useAudioAnalyzer.ts:29-44 | when one frame is scheduled, running it publishes its level and leaves exactly the next id scheduled and named by the ref |
| AudioAnalyzer.ReachableValid | hooks/useAudioAnalyzer.ts:10-65 | in every reachable state a session exists iff a stream is attached, with exactly one scheduled frame (the newest, named by the ref) and exactly one open context (the newest); without a stream nothing is scheduled; all other contexts are closed; every published level is in [0, 1] |
| AudioAnalyzer.AtMostOneOpen | hooks/useAudioAnalyzer.ts:48-64 | no two contexts are open (not closed) at once |
| AudioAnalyzer.NoStreamNoSession | hooks/useAudioAnalyzer.ts:4-11 | a null stream builds nothing and the level stays 0 |
| AudioAnalyzer.StreamSwitch | hooks/useAudioAnalyzer.ts:48-65 | a new stream closes the old context with exactly one `close()` and cancels the old frame, so only the new session's frame is scheduled; the new context is then open and publishes at once |
| AudioAnalyzer.UnmountTearsDown | hooks/useAudioAnalyzer.ts:48-64 | unmounting an attached hook cancels its frame and closes its context with one `close()`, leaving nothing scheduled and no context open |
| AudioAnalyzer.AttachedFramesPublish | hooks/useAudioAnalyzer.ts:29-44 | while attached, the N frames the session schedules one after another publish exactly the N levels of their own bins, in order, and leave only the newest frame scheduled |
| AudioAnalyzer.DetachedFramesPublishNothing | hooks/useAudioAnalyzer.ts:48-64 | after detaching, frames change nothing and every context is closed |
| MoleLesson.ConversionsLinear | EurekaLesson-Chemistry.tsx:269-294 | volume, mass and molecule count are linear in the amount, with slopes 22.4 L, 32 g and 6.02 x 10^23 |
| MoleLesson.AiTenths | EurekaLesson-Chemistry.tsx:132 | for any draw in [0, 1) the agent's amount is a whole number of tenths between 0.5 and 4.9 mol |
| MoleLesson.StartAiChallenge | EurekaLesson-Chemistry.tsx:123-128 | the three challenge flags rise and the move timer is scheduled; the amount and the view stay |
| MoleLesson.AiMove | EurekaLesson-Chemistry.tsx:130-135 | the move timer sets the random amount and schedules the ask timer; the flags stay |
| MoleLesson.AiAsk | EurekaLesson-Chemistry.tsx:137-140 | the ask timer lowers only `isAiControlling` |
| MoleLesson.RevealAnswer | EurekaLesson-Chemistry.tsx:144-147 | only `answerHidden` falls |
| MoleLesson.ExitChallenge | EurekaLesson-Chemistry.tsx:149-153 | challenge mode and the mask fall; the amount, `isAiControlling` and the timers stay |
| MoleLesson.SliderChange | EurekaLesson-Chemistry.tsx:393-404 | the slider sets the amount iff not in challenge mode, and otherwise changes nothing |
| MoleLesson.Next | EurekaLesson-Chemistry.tsx:189-466 | the view buttons set macro/micro and the tank always sets micro; the challenge buttons act only when rendered, and then start a challenge with the answer hidden and the agent holding the slider, reveal the answer, or leave challenge mode with the amount kept; a control not on screen changes nothing; in challenge mode the slider never moves the amount |
| MoleLesson.ReachableValid | EurekaLesson-Chemistry.tsx:111-117 | from the initial page (macro, 1 mol, flags down), every reachable page has the amount on the 0.1 to 5.0 grid. The answer is hidden only during a challenge. While the agent holds the slider, a timer is still due |
| MoleLesson.MovesFire | EurekaLesson-Chemistry.tsx:130-135 | firing n scheduled move timers sets the drawn amount and schedules n ask timers |
| MoleLesson.AsksFire | EurekaLesson-Chemistry.tsx:137-140 | firing n scheduled ask timers releases the slider and changes nothing else |
| MoleLesson.AgentReleasesSlider | EurekaLesson-Chemistry.tsx:130-141 | once every scheduled timer has fired, the agent has let go and no timer is left |
| MoleLesson.ExitLeavesTimersRunning | EurekaLesson-Chemistry.tsx:123-153 | start, reveal and exit at once, then the move timer: the agent still takes the slider and changes the amount outside the challenge |
| MoleLesson.ChallengeAnswerRange | EurekaLesson-Chemistry.tsx:432-434 | the hidden answer lies between 3.01 and 29.498 (x 10^23) molecules |

## Left out

- HandwritingModal.CanvasDimension: box sizes of 2^32 or more, or of -2^31 or less, follow the same conversion in the body, but the contract does not describe them, because a layout box never has such sizes.
- The Gemini client, the base-URL lookup and the network transport. How the call settles is an input (`Outcome`).
- `console.error` logging in the recognition and audio hooks, because it has no effect on state.
- Thrown values that are not `Error`-like (`null`, or a non-string `message`). The model takes an optional string message.
- `HandwritingRecognition.Recognize`: the `isRecognizing` trace does not record React batching; it lists every value set, in order.
- The Web Audio API. The bins of each frame arrive as event data.
- `requestAnimationFrame` timing. Frame ids come from a counter that starts at 1, and each frame event runs one scheduled callback.
- The `close()` promise. A context counts as closed once `close()` is called, and a rejected or throwing `close()` is swallowed, so it changes nothing.
- `AudioAnalyzer.Level`: exact rational arithmetic, not IEEE-754 doubles. It leaves out the rounding of `sum / bufferLength` and `/ 100`.
- A failing `AudioContext` constructor (unsupported environment) is not modelled.
- `MoleLesson.ConversionsLinear`: exact reals, not doubles. The `toFixed` display formatting is left out.
- `setTimeout` delays. The two timers are events that may fire at any later point once scheduled.
- `Math.random()` is an event parameter in [0, 1).
- The agent's chat messages (`aiMessage`), because they are display text.
- The random particle layout and the CSS transitions.
- The slider's `pointer-events-none` while the agent holds it. It blocks the mouse but not keyboard input, so `MoleLesson.Next` lets a slide through whenever the input is not `disabled`.
- Canvas pixel rendering. The bitmap is the list of stroked segments.
- PNG and base 64 encoding. The encoder is a parameter returning text in the base 64 alphabet.
- The `getContext('2d')` returning `null` branches, because a canvas element always has a 2D context here.
- The error banner's no-op dismiss button.
- The navigation back button.
- `MemoryGallery`, `Icons`, `SubtitleView`, `ControlPanel`, `UploadScreen` and `MainApp`, because they are presentation and routing.

=== FILE: audio_analyzer.dfy ===
/**
 The audio level hook: while a media stream is attached it owns one audio
 context with an analyser of FFT size 256, and on every animation frame it
 publishes the mean of the 128 byte-valued frequency bins divided by 100,
 capped at 1. Switching streams (or unmounting) cancels the pending frame and
 closes the context before anything new is built.

 The Web Audio graph and the animation-frame scheduler are abstracted: the
 bins of each tick arrive as event data, and the host's scheduled callbacks
 are a set of frame ids.
 */
module AudioAnalyzer {
  import opened Wrappers
  import Trace

  /** A `Uint8Array` element. */
  type Byte = b: int | 0 <= b < 256

  const FftSize: nat := 256

  /** `analyser.frequencyBinCount`: half the FFT size. */
  const BinCount: nat := FftSize / 2

  /** The mean bin value that maps to full level. */
  const Ceiling: real := 100.0

  /** One reading of `getByteFrequencyData`. */
  type Spectrum = s: seq<Byte> | |s| == BinCount witness seq(128, i => 0 as Byte)

  /** The sum of the bins, first to last. */
  function Sum(s: seq<Byte>): (n: nat)
    decreases |s|
  {
    if |s| == 0 then 0 else Sum(s[..|s| - 1]) + s[|s| - 1]
  }

  lemma {:induction false} SumBounded(s: seq<Byte>)
    ensures Sum(s) <= 255 * |s|
    decreases |s|
  {
    if |s| > 0 {
      SumBounded(s[..|s| - 1]);
    }
  }

  /** The sum is zero exactly when every bin is. */
  lemma {:induction false} SumZeroIff(s: seq<Byte>)
    ensures Sum(s) == 0 <==> forall i :: 0 <= i < |s| ==> s[i] == 0
    decreases |s|
  {
    if |s| > 0 {
      var init := s[..|s| - 1];
      SumZeroIff(init);
      if Sum(s) == 0 {
        forall i | 0 <= i < |s|
          ensures s[i] == 0
        {
          if i < |init| { assert s[i] == init[i]; }
        }
      }
      if forall i :: 0 <= i < |s| ==> s[i] == 0 {
        assert forall i :: 0 <= i < |init| ==> init[i] == 0 by {
          forall i | 0 <= i < |init|
            ensures init[i] == 0
          {
            assert init[i] == s[i];
          }
        }
      }
    }
  }

  /** Raising any bins never lowers the sum. */
  lemma {:induction false} SumMonotone(a: seq<Byte>, b: seq<Byte>)
    requires |a| == |b|
    requires forall i :: 0 <= i < |a| ==> a[i] <= b[i]
    ensures Sum(a) <= Sum(b)
    decreases |a|
  {
    if |a| > 0 {
      var n := |a| - 1;
      assert forall i :: 0 <= i < n ==> a[..n][i] <= b[..n][i] by {
        forall i | 0 <= i < n
          ensures a[..n][i] <= b[..n][i]
        {
          assert a[..n][i] == a[i] && b[..n][i] == b[i];
        }
      }
      SumMonotone(a[..n], b[..n]);
    }
  }

  /** `Math.min`. */
  function Min(a: real, b: real): (m: real) {
    if a <= b then a else b
  }

  /**
   The level one tick publishes: the mean bin over the ceiling, capped at 1.
   It lies in [0, 1], is full exactly when the mean reaches 100, and is zero
   exactly when every bin is silent.
   */
  function Level(bins: Spectrum): (r: real)
    ensures 0.0 <= r <= 1.0
    ensures r == 1.0 <==> Sum(bins) >= 100 * BinCount
    ensures r == 0.0 <==> forall i :: 0 <= i < |bins| ==> bins[i] == 0
  {
    SumZeroIff(bins);
    assert BinCount == 128;
    var mean := Sum(bins) as real / BinCount as real;
    assert mean / Ceiling == Sum(bins) as real / 12800.0;
    Min(mean / Ceiling, 1.0)
  }

  /**
   The mean bin value is at most 255, so the full level is reached at a mean
   of 100, well inside the range a byte bin can produce.
   */
  lemma MeanBounded(bins: Spectrum)
    ensures 0.0 <= Sum(bins) as real / BinCount as real <= 255.0
    ensures Level(bins) == 1.0 <== forall i :: 0 <= i < BinCount ==> bins[i] >= 100
  {
    SumBounded(bins);
    assert BinCount == 128;
    if forall i :: 0 <= i < BinCount ==> bins[i] >= 100 {
      var hundreds := seq(BinCount, i => 100 as Byte);
      SumMonotone(hundreds, bins);
      SumConstant(100, BinCount);
    }
  }

  /** A run of equal bins sums to their product. */
  lemma {:induction false} SumConstant(v: Byte, n: nat)
    ensures Sum(seq(n, i => v)) == v * n
    decreases n
  {
    if n > 0 {
      SumConstant(v, n - 1);
      assert seq(n, i => v)[..n - 1] == seq(n - 1, i => v);
    }
  }

  /** A louder spectrum, bin by bin, never shows a lower level. */
  lemma LevelMonotone(a: Spectrum, b: Spectrum)
    requires forall i :: 0 <= i < BinCount ==> a[i] <= b[i]
    ensures Level(a) <= Level(b)
  {
    SumMonotone(a, b);
    LevelMonotoneInSum(a, b);
  }

  /** The level is monotone in the bin sum. */
  lemma LevelMonotoneInSum(a: Spectrum, b: Spectrum)
    requires Sum(a) <= Sum(b)
    ensures Level(a) <= Level(b)
  {
    assert BinCount == 128;
  }

  /** The `update` computation: the averaging loop over the bins, then the capped ratio. */
  method ComputeLevel(bins: Spectrum) returns (level: real)
    ensures level == Level(bins)
  {
    var sum: nat := 0;
    var i := 0;
    while i < BinCount
      invariant 0 <= i <= BinCount
      invariant sum == Sum(bins[..i])
    {
      assert bins[..i + 1][..i] == bins[..i];
      sum := sum + bins[i];
      i := i + 1;
    }
    assert bins[..BinCount] == bins;
    var average := sum as real / BinCount as real;
    level := Min(average / Ceiling, 1.0);
  }

  /** An audio context's `state` as the cleanup reads it: `Open` is anything but `'closed'`. */
  datatype ContextState = Open | Closed

  /**
   The hook's observable world: the stream property, the `audioLevel` state
   and every value it was set to, every audio context created (by index) with
   its state, the indices `close()` was called on, the two refs, the ids of
   the animation-frame callbacks the host has scheduled and not yet run or
   cancelled, and the host's next frame id (ids start at 1, so they are truthy).
   */
  datatype Hook = Hook(
    stream: Option<nat>,
    level: real,
    published: seq<real>,
    contexts: seq<ContextState>,
    closeCalls: seq<nat>,
    contextRef: Option<nat>,
    frameRef: Option<nat>,
    pending: set<nat>,
    nextFrameId: nat)

  const Mounted := Hook(None, 0.0, [], [], [], None, None, {}, 1)

  /** `update`: publish this tick's level and schedule exactly one next frame. */
  function Tick(h: Hook, bins: Spectrum): (t: Hook)
    ensures t.published == h.published + [Level(bins)] && t.level == Level(bins)
    ensures t.pending == h.pending + {h.nextFrameId} && t.frameRef == Some(h.nextFrameId)
    ensures t.nextFrameId == h.nextFrameId + 1
    ensures t.contexts == h.contexts && t.contextRef == h.contextRef && t.closeCalls == h.closeCalls
    ensures t.stream == h.stream
  {
    var level := Level(bins);
    h.(level := level, published := h.published + [level],
       pending := h.pending + {h.nextFrameId}, frameRef := Some(h.nextFrameId),
       nextFrameId := h.nextFrameId + 1)
  }

  /** The effect body for a stream: a new open context, then the first tick at once. */
  function Attach(h: Hook, first: Spectrum): (t: Hook)
    ensures t.contexts == h.contexts + [Open] && t.contextRef == Some(|h.contexts|)
    ensures t.published == h.published + [Level(first)]
    ensures t.pending == h.pending + {h.nextFrameId} && t.closeCalls == h.closeCalls && t.stream == h.stream
  {
    var id := |h.contexts|;
    Tick(h.(contexts := h.contexts + [Open], contextRef := Some(id)), first)
  }

  /**
   The effect cleanup: cancel the frame the ref names (when the id is truthy;
   cancelling an id that is not scheduled does nothing), close the context
   unless it is already closed, and null the context ref in every case. The
   frame ref keeps its stale id. A failing `close()` is swallowed, so it
   changes nothing here.
   */
  function Teardown(h: Hook): (t: Hook)
    ensures t.contextRef.None? && t.frameRef == h.frameRef
    ensures h.frameRef.Some? && h.frameRef.value != 0 ==> t.pending == h.pending - {h.frameRef.value}
    ensures !(h.frameRef.Some? && h.frameRef.value != 0) ==> t.pending == h.pending
    ensures |t.contexts| == |h.contexts|
    ensures forall i :: 0 <= i < |h.contexts| && Some(i) != h.contextRef ==> t.contexts[i] == h.contexts[i]
    ensures h.contextRef.Some? && h.contextRef.value < |h.contexts| ==> t.contexts[h.contextRef.value] == Closed
    ensures t.closeCalls == h.closeCalls + (if ClosesContext(h) then [h.contextRef.value] else [])
    ensures t.published == h.published && t.level == h.level && t.stream == h.stream
  {
    var pending :=
      if h.frameRef.Some? && h.frameRef.value != 0 then h.pending - {h.frameRef.value} else h.pending;
    var cancelled := h.(pending := pending);
    match h.contextRef
    case None => cancelled
    case Some(id) =>
      if ClosesContext(h) then
        cancelled.(contexts := h.contexts[id := Closed], closeCalls := h.closeCalls + [id], contextRef := None)
      else
        cancelled.(contextRef := None)
  }

  /** The cleanup calls `close()`: the ref holds a context whose state is not `closed`. */
  predicate ClosesContext(h: Hook) {
    h.contextRef.Some? && h.contextRef.value < |h.contexts| && h.contexts[h.contextRef.value] != Closed
  }

  /**
   What reaches the hook: a new `stream` property (with the first tick's
   bins), or the host running the animation-frame callback with id `id`.
   Unmounting runs the same cleanup as a change to a null stream, so it is
   `StreamChanged(None, _)` (see `UnmountTearsDown`).
   */
  datatype Event = StreamChanged(stream: Option<nat>, first: Spectrum) | AnimationFrame(id: nat, bins: Spectrum)

  /**
   A changed stream runs the old effect's cleanup (there is none after a
   null stream), then the new effect, which does nothing for a null stream.
   A frame runs its callback if it is still scheduled; the callback is then
   no longer pending.
   */
  function Next(h: Hook, e: Event): (t: Hook)
    ensures e.StreamChanged? && e.stream == h.stream ==> t == h
    ensures e.AnimationFrame? && e.id !in h.pending ==> t == h
    ensures e.AnimationFrame? && e.id in h.pending ==>
              t.published == h.published + [Level(e.bins)] && t.pending == h.pending - {e.id} + {h.nextFrameId}
  {
    match e
    case StreamChanged(stream, first) =>
      if stream == h.stream then h
      else
        var prior := if h.stream.Some? then Teardown(h) else h;
        var t := prior.(stream := stream);
        if stream.Some? then Attach(t, first) else t
    case AnimationFrame(id, bins) =>
      if id !in h.pending then h else Tick(h.(pending := h.pending - {id}), bins)
  }

  predicate UnitInterval(x: real) { 0.0 <= x <= 1.0 }

  /**
   What holds between events: a session exists exactly while a stream is
   attached; then exactly one frame is scheduled, the newest, which the ref
   names, and exactly one context is open, the newest, which the ref holds.
   Without a stream nothing is scheduled. Every other context has been
   closed, and every published level is in [0, 1].
   */
  ghost predicate Valid(h: Hook) {
    && h.nextFrameId >= 1
    && (h.stream.Some? <==> h.contextRef.Some?)
    && (h.stream.Some? ==> h.nextFrameId >= 2 && h.frameRef == Some(h.nextFrameId - 1) && h.pending == {h.nextFrameId - 1})
    && (h.stream.None? ==> h.pending == {})
    && (h.contextRef.Some? ==> h.contextRef.value == |h.contexts| - 1 && h.contexts[|h.contexts| - 1] == Open)
    && (forall i :: 0 <= i < |h.contexts| && Some(i) != h.contextRef ==> h.contexts[i] == Closed)
    && (forall i :: 0 <= i < |h.published| ==> UnitInterval(h.published[i]))
    && h.level == (if |h.published| == 0 then 0.0 else h.published[|h.published| - 1])
  }

  lemma NextKeepsValid(h: Hook, e: Event)
    requires Valid(h)
    ensures Valid(Next(h, e))
  {
    match e
    case StreamChanged(stream, first) =>
      if stream != h.stream {
        var prior := if h.stream.Some? then Teardown(h) else h;
        DetachKeepsValid(h);
        if stream.Some? {
          AttachKeepsValid(prior.(stream := stream), first);
        }
      }
    case AnimationFrame(id, bins) =>
  }

  /** Tearing down leaves every context closed and no frame scheduled. */
  lemma DetachKeepsValid(h: Hook)
    requires Valid(h)
    ensures var prior := if h.stream.Some? then Teardown(h) else h;
            && Valid(prior.(stream := None))
            && forall i :: 0 <= i < |prior.contexts| ==> prior.contexts[i] == Closed
  {
  }

  lemma AttachKeepsValid(h: Hook, first: Spectrum)
    requires Valid(h.(stream := None)) && h.stream.Some?
    requires forall i :: 0 <= i < |h.contexts| ==> h.contexts[i] == Closed
    ensures Valid(Attach(h, first))
  {
  }

  /** Every state reachable from mounting satisfies the invariant. */
  lemma {:induction false} ReachableValid(evs: seq<Event>)
    ensures Valid(Trace.Run(Next, Mounted, evs))
    decreases |evs|
  {
    if |evs| > 0 {
      ReachableValid(evs[..|evs| - 1]);
      NextKeepsValid(Trace.Run(Next, Mounted, evs[..|evs| - 1]), evs[|evs| - 1]);
    }
  }

  /** Contexts are never leaked: at most one is not closed at any time. */
  lemma AtMostOneOpen(h: Hook, i: nat, j: nat)
    requires Valid(h)
    requires i < |h.contexts| && j < |h.contexts|
    requires h.contexts[i] == Open && h.contexts[j] == Open
    ensures i == j
  {
  }

  /** With no stream there is no session and the level stays at 0. */
  lemma NoStreamNoSession(first: Spectrum)
    ensures Next(Mounted, StreamChanged(None, first)) == Mounted
    ensures Mounted.level == 0.0 && Mounted.contexts == []
  {
  }

  /**
   A new stream tears the old session down before building its own: the old
   context is closed (by exactly one `close()` call), its frame is cancelled
   so only the new session's frame is scheduled, and the new context is the
   only open one, with one level published at once.
   */
  lemma StreamSwitch(h: Hook, stream: nat, first: Spectrum)
    requires Valid(h) && h.stream.Some? && h.stream != Some(stream)
    ensures var t := Next(h, StreamChanged(Some(stream), first));
            && t.closeCalls == h.closeCalls + [h.contextRef.value]
            && t.contexts == h.contexts[h.contextRef.value := Closed] + [Open]
            && t.contextRef == Some(|h.contexts|)
            && t.published == h.published + [Level(first)]
            && t.pending == {h.nextFrameId} && h.frameRef.value !in t.pending
  {
  }

  /**
   Unmounting with a stream attached cancels the session's frame and closes
   its context with one `close()`; nothing stays scheduled or open.
   */
  lemma UnmountTearsDown(h: Hook, first: Spectrum)
    requires Valid(h) && h.stream.Some?
    ensures var t := Next(h, StreamChanged(None, first));
            && t.closeCalls == h.closeCalls + [h.contextRef.value]
            && t.pending == {} && h.frameRef.value !in t.pending
            && (forall i :: 0 <= i < |t.contexts| ==> t.contexts[i] == Closed)
            && t.published == h.published && Valid(t)
  {
    DetachKeepsValid(h);
  }

  /** The levels a run of frames publishes, in order. */
  function Levels(frames: seq<Spectrum>): (ls: seq<real>)
    ensures |ls| == |frames|
    ensures forall i :: 0 <= i < |ls| ==> UnitInterval(ls[i])
  {
    seq(|frames|, i requires 0 <= i < |frames| => Level(frames[i]))
  }

  /** Frames with consecutive ids from `start`, one per spectrum. */
  function AsFrames(start: nat, frames: seq<Spectrum>): (evs: seq<Event>)
    ensures |evs| == |frames|
  {
    seq(|frames|, i requires 0 <= i < |frames| => AnimationFrame(start + i, frames[i]))
  }

  /** One more frame is one more event and one more level. */
  lemma FramesSnoc(start: nat, frames: seq<Spectrum>)
    requires |frames| > 0
    ensures AsFrames(start, frames)
            == AsFrames(start, frames[..|frames| - 1]) + [AnimationFrame(start + |frames| - 1, frames[|frames| - 1])]
    ensures Levels(frames) == Levels(frames[..|frames| - 1]) + [Level(frames[|frames| - 1])]
  {
    var n := |frames| - 1;
    assert AsFrames(start, frames) == AsFrames(start, frames[..n]) + [AnimationFrame(start + n, frames[n])];
    assert Levels(frames) == Levels(frames[..n]) + [Level(frames[n])];
  }

  /**
   While attached, the N frames the session schedules one after another
   publish exactly N levels, each in [0, 1] and each computed from that
   frame's bins alone; the session stays attached with its newest frame
   the only one scheduled.
   */
  lemma {:induction false} AttachedFramesPublish(h: Hook, frames: seq<Spectrum>)
    requires h.nextFrameId >= 2 && h.pending == {h.nextFrameId - 1}
    requires h.frameRef == Some(h.nextFrameId - 1)
    ensures var t := Trace.Run(Next, h, AsFrames(h.nextFrameId - 1, frames));
            && t.published == h.published + Levels(frames)
            && t.stream == h.stream && t.nextFrameId == h.nextFrameId + |frames|
            && t.pending == {t.nextFrameId - 1} && t.frameRef == Some(t.nextFrameId - 1)
            && t.contexts == h.contexts && t.closeCalls == h.closeCalls
    decreases |frames|
  {
    if |frames| > 0 {
      var n := |frames| - 1;
      var start := h.nextFrameId - 1;
      var evs := AsFrames(start, frames[..n]);
      var prev := Trace.Run(Next, h, evs);
      AttachedFramesPublish(h, frames[..n]);
      ScheduledFrameTicks(prev, frames[n]);
      FramesSnoc(start, frames);
      Trace.RunSnoc(Next, h, evs, AnimationFrame(start + n, frames[n]));
      assert h.published + Levels(frames) == prev.published + [Level(frames[n])];
    }
  }

  /** The one scheduled frame runs `update`, which schedules the next one in its place. */
  lemma ScheduledFrameTicks(h: Hook, bins: Spectrum)
    requires h.nextFrameId >= 2 && h.pending == {h.nextFrameId - 1}
    ensures var t := Next(h, AnimationFrame(h.nextFrameId - 1, bins));
            && t.published == h.published + [Level(bins)]
            && t.nextFrameId == h.nextFrameId + 1
            && t.pending == {h.nextFrameId} && t.frameRef == Some(h.nextFrameId)
            && t.stream == h.stream && t.contexts == h.contexts && t.closeCalls == h.closeCalls
  {
    assert h.pending - {h.nextFrameId - 1} + {h.nextFrameId} == {h.nextFrameId};
  }

  /** After detaching, no frame publishes anything and nothing is left open. */
  lemma {:induction false} DetachedFramesPublishNothing(h: Hook, start: nat, frames: seq<Spectrum>)
    requires Valid(h) && h.stream.None?
    ensures Trace.Run(Next, h, AsFrames(start, frames)) == h
    ensures forall i :: 0 <= i < |h.contexts| ==> h.contexts[i] == Closed
    decreases |frames|
  {
    if |frames| > 0 {
      var n := |frames| - 1;
      DetachedFramesPublishNothing(h, start, frames[..n]);
      assert AsFrames(start, frames)[..n] == AsFrames(start, frames[..n]);
    }
  }
}

=== FILE: data_url.dfy ===
/**
 The `data:` URL that the capture surface emits and the recognizer takes apart.
 Section 3 of RFC 2397 writes a data URL as `data:` [media type] [`;base64`]
 `,` data, and the alphabet of section 4 of RFC 4648 (letters, digits, `+`,
 `/` and the pad `=`) holds no comma, so the comma after the header is the
 only one in the URL.
 */
module DataUrl {
  import opened Wrappers
  import opened JsString

  /** A character of the base 64 alphabet, pad included. */
  predicate IsBase64Char(c: char) {
    || ('A' <= c <= 'Z') || ('a' <= c <= 'z') || ('0' <= c <= '9')
    || c == '+' || c == '/' || c == '='
  }

  /** Text in the base 64 alphabet: what PNG bytes look like after encoding. */
  type Base64Text = s: string | forall i :: 0 <= i < |s| ==> IsBase64Char(s[i])

  /** The header `canvas.toDataURL('image/png')` puts before the payload. */
  const PngHeader: string := "data:image/png;base64"

  lemma Base64HasNoComma(b: Base64Text)
    ensures ',' !in b
  {
  }

  /** The URL `toDataURL('image/png')` returns for an encoded image. */
  function PngDataUrl(payload: Base64Text): (url: string)
    ensures |url| == |PngHeader| + 1 + |payload|
    ensures url[..|PngHeader|] == PngHeader && url[|PngHeader|] == ','
  {
    PngHeader + [','] + payload
  }

  /**
   `url.split(',')[1]`: the text between the first and the second comma, or
   to the end when there is only one; absent (`undefined`) when the URL holds
   no comma at all.
   */
  function Payload(url: string): (p: Option<string>)
    ensures p.Some? <==> ',' in url
    ensures p.Some? ==> ',' !in p.value
  {
    var pieces := Split(url, ',');
    if |pieces| > 1 then Some(pieces[1]) else None
  }

  /** What `toDataURL` returns for a bitmap without pixels. */
  const EmptyDataUrl: string := "data:,"

  /** The payload of the empty data URL is the empty string. */
  lemma EmptyDataUrlPayload()
    ensures Payload(EmptyDataUrl) == Some("")
  {
    assert EmptyDataUrl == "data:" + [','] + "";
    PayloadAfterHeader("data:", "");
  }

  /** With a comma-free header and a comma-free body, the payload is the body. */
  lemma {:induction false} PayloadAfterHeader(header: string, body: string)
    requires ',' !in header && ',' !in body
    ensures Payload(header + [','] + body) == Some(body)
  {
    var pieces := [header, body];
    assert Join(pieces, ',') == header + [','] + body by {
      assert pieces[1..] == [body];
    }
    SplitJoin(pieces, ',');
  }

  /** Stripping the header from what the surface emits gives back the encoded image. */
  lemma PngDataUrlRoundTrip(payload: Base64Text)
    ensures Payload(PngDataUrl(payload)) == Some(payload)
  {
    Base64HasNoComma(payload);
    PayloadAfterHeader(PngHeader, payload);
  }
}

=== FILE: handwriting_modal.dfy ===
/**
 The handwriting capture surface: a modal holding a canvas on which the pen
 or a finger draws white strokes, with the React state flags `isDrawing` and
 `hasDrawing` and the `isProcessing` property its parent passes in.

 The bitmap is abstracted to the list of line segments stroked since the last
 erase, and the 2D context's current path to a cursor: the last point of the
 path, or nothing after `beginPath()`. A canvas `lineTo` on an empty path only
 places the pen (it acts as `moveTo`), so it strokes nothing.
 */
module HandwritingModal {
  import opened Wrappers
  import opened DataUrl
  import Trace

  datatype Point = Point(x: real, y: real)

  datatype Segment = Segment(from: Point, to: Point)

  datatype LineCap = ButtCap | RoundCap | SquareCap
  datatype LineJoin = MiterJoin | RoundJoin | BevelJoin

  datatype StrokeStyle = StrokeStyle(lineCap: LineCap, lineJoin: LineJoin, color: string, lineWidth: real)

  /** The pen the surface configures when it opens. */
  const Ink := StrokeStyle(RoundCap, RoundJoin, "#fff", 4.0)

  /** A canvas element with its 2D context. */
  datatype Canvas = Canvas(width: nat, height: nat, style: StrokeStyle, segments: seq<Segment>, cursor: Option<Point>)

  /** A layout box in client coordinates, as `getBoundingClientRect()` reports it. */
  datatype Rect = Rect(left: real, top: real, width: real, height: real)

  /** Mouse events carry one client point; touch events a non-empty touch list. */
  datatype PointerInput = Mouse(client: Point) | Touch(first: Point, others: seq<Point>)

  /** A pointer event together with the canvas box at the time it arrives. */
  datatype PointerEvent = PointerEvent(input: PointerInput, canvasBox: Rect)

  /**
   The modal: its canvas while open (the element is not rendered while
   closed), the two state flags, and the `isProcessing` property.
   */
  datatype Surface = Surface(canvas: Option<Canvas>, isDrawing: bool, hasDrawing: bool, isProcessing: bool)

  const Unopened := Surface(None, false, false, false)

  const TwoTo32: int := 0x1_0000_0000

  /**
   Assigning a number to `canvas.width` or `canvas.height` first converts it as
   a Web IDL `unsigned long`: truncation toward zero, then reduction modulo 2^32.
   */
  function ToUnsignedLong(x: real): (n: nat)
    ensures n < TwoTo32
    ensures 0.0 <= x < TwoTo32 as real ==> n == x.Floor
    ensures -1.0 < x < 0.0 ==> n == 0
    ensures -(TwoTo32 as real) < x <= -1.0 ==> n == TwoTo32 - (-x).Floor
  {
    var t := if x >= 0.0 then x.Floor else -((-x).Floor);
    t % TwoTo32
  }

  /** The largest value an HTML reflected `unsigned long` attribute takes. */
  const MaxReflected: int := 0x7FFF_FFFF

  /** The canvas size the element falls back to. */
  const DefaultWidth: nat := 300
  const DefaultHeight: nat := 150

  /**
   `canvas.width` and `canvas.height` are reflected attributes: after the Web
   IDL conversion, a value above 2^31 - 1 is replaced by the attribute's
   default. A box size below 2^31 is floored; a larger one, and any size at or
   below -1 down to -2^31, ends at the default; a size in (-1, 0) gives 0.
   */
  function CanvasDimension(x: real, default: nat): (n: nat)
    ensures 0.0 <= x < (MaxReflected + 1) as real ==> n == x.Floor
    ensures (MaxReflected + 1) as real <= x < TwoTo32 as real ==> n == default
    ensures -((MaxReflected + 1) as real) < x <= -1.0 ==> n == default
    ensures -1.0 < x < 0.0 ==> n == 0
    ensures n <= MaxReflected || n == default
  {
    var v := ToUnsignedLong(x);
    if v <= MaxReflected then v else default
  }

  /**
   The opening effect: size the canvas to the container box and set the pen.
   Setting the size resets the bitmap and the path, so the canvas starts blank.
   */
  function SizedCanvas(container: Rect): (c: Canvas)
    ensures 0.0 <= container.width < (MaxReflected + 1) as real ==> c.width == container.width.Floor
    ensures 0.0 <= container.height < (MaxReflected + 1) as real ==> c.height == container.height.Floor
    ensures (MaxReflected + 1) as real <= container.width < TwoTo32 as real ==> c.width == DefaultWidth
    ensures (MaxReflected + 1) as real <= container.height < TwoTo32 as real ==> c.height == DefaultHeight
    ensures c.width <= MaxReflected && c.height <= MaxReflected
    ensures c.style.lineCap == RoundCap && c.style.lineJoin == RoundJoin
    ensures c.style.color == "#fff" && c.style.lineWidth == 4.0
    ensures c.segments == [] && c.cursor.None?
  {
    Canvas(CanvasDimension(container.width, DefaultWidth), CanvasDimension(container.height, DefaultHeight), Ink, [], None)
  }

  /**
   `isOpen` turning true mounts a fresh canvas and runs the sizing effect; the
   effect only reruns when `isOpen` changes, so an open surface is left alone.
   The flags are component state and survive.
   */
  function Open(s: Surface, container: Rect): (t: Surface)
    ensures s.canvas.Some? ==> t == s
    ensures s.canvas.None? ==> t.canvas == Some(SizedCanvas(container))
    ensures t.isDrawing == s.isDrawing && t.hasDrawing == s.hasDrawing && t.isProcessing == s.isProcessing
  {
    if s.canvas.Some? then s else s.(canvas := Some(SizedCanvas(container)))
  }

  /** `isOpen` turning false unmounts the canvas; the flags survive. */
  function Close(s: Surface): (t: Surface)
    ensures t.canvas.None?
    ensures t.isDrawing == s.isDrawing && t.hasDrawing == s.hasDrawing && t.isProcessing == s.isProcessing
  {
    s.(canvas := None)
  }

  /** The client point of an event: the mouse position, or the first touch. */
  function ClientPoint(input: PointerInput): (p: Point) {
    match input
    case Mouse(p) => p
    case Touch(first, _) => first
  }

  /** The event's point in canvas coordinates. */
  function LocalPoint(ev: PointerEvent): (p: Point) {
    var c := ClientPoint(ev.input);
    Point(c.x - ev.canvasBox.left, c.y - ev.canvasBox.top)
  }

  /**
   The `draw` handler, evaluated with the `isDrawing` of the render that
   created it: nothing happens unless a stroke is under way; otherwise
   `lineTo` + `stroke` paints the segment from the cursor (if any) to the
   event's point, and `beginPath` + `moveTo` leave the cursor there.
   */
  function Draw(s: Surface, ev: PointerEvent): (t: Surface)
    ensures !s.isDrawing || s.canvas.None? ==> t == s
    ensures s.isDrawing && s.canvas.Some? ==>
      var c := s.canvas.value;
      var p := Point(ClientPoint(ev.input).x - ev.canvasBox.left, ClientPoint(ev.input).y - ev.canvasBox.top);
      && t.canvas.Some?
      && t.canvas.value.cursor == Some(p)
      && (c.cursor.None? ==> t.canvas.value.segments == c.segments)
      && (c.cursor.Some? ==> t.canvas.value.segments == c.segments + [Segment(c.cursor.value, p)])
      && t.canvas.value.width == c.width && t.canvas.value.height == c.height
      && t.canvas.value.style == c.style
    ensures t.isDrawing == s.isDrawing && t.hasDrawing == s.hasDrawing && t.isProcessing == s.isProcessing
  {
    if !s.isDrawing then s
    else
      match s.canvas
      case None => s
      case Some(c) =>
        var p := LocalPoint(ev);
        var stroked := if c.cursor.Some? then c.segments + [Segment(c.cursor.value, p)] else c.segments;
        s.(canvas := Some(c.(segments := stroked, cursor := Some(p))))
  }

  /**
   `startDrawing`: raise both flags, then run `draw` — whose closure still
   sees the `isDrawing` from before the press, so a fresh press paints
   nothing and does not move the cursor.
   */
  function StartDrawing(s: Surface, ev: PointerEvent): (t: Surface)
    ensures t.isDrawing && t.hasDrawing && t.isProcessing == s.isProcessing
    ensures !s.isDrawing ==> t.canvas == s.canvas
    ensures s.isDrawing && s.canvas.Some? ==>
      && t.canvas.Some? && t.canvas.value.cursor == Some(LocalPoint(ev))
      && |t.canvas.value.segments| == |s.canvas.value.segments| + (if s.canvas.value.cursor.Some? then 1 else 0)
  {
    Draw(s, ev).(isDrawing := true, hasDrawing := true)
  }

  /** `stopDrawing`: lower `isDrawing` and empty the path. */
  function StopDrawing(s: Surface): (t: Surface)
    ensures !t.isDrawing && t.hasDrawing == s.hasDrawing && t.isProcessing == s.isProcessing
    ensures t.canvas.Some? <==> s.canvas.Some?
    ensures t.canvas.Some? ==>
      && t.canvas.value.cursor.None?
      && t.canvas.value == s.canvas.value.(cursor := None)
  {
    var stopped := s.(isDrawing := false);
    match s.canvas
    case None => stopped
    case Some(c) => stopped.(canvas := Some(c.(cursor := None)))
  }

  /**
   `clearCanvas`: `clearRect` over the whole bitmap erases every segment and
   `hasDrawing` drops. It neither lowers `isDrawing` nor empties the path.
   Without a canvas nothing happens.
   */
  function ClearCanvas(s: Surface): (t: Surface)
    ensures s.canvas.None? ==> t == s
    ensures s.canvas.Some? ==>
      && !t.hasDrawing && t.canvas.Some?
      && t.canvas.value.segments == []
      && t.canvas.value.cursor == s.canvas.value.cursor
      && t.canvas.value.width == s.canvas.value.width && t.canvas.value.height == s.canvas.value.height
    ensures t.isDrawing == s.isDrawing && t.isProcessing == s.isProcessing
  {
    match s.canvas
    case None => s
    case Some(c) => s.(canvas := Some(c.(segments := [])), hasDrawing := false)
  }

  /** Encodes a canvas bitmap as PNG and then base 64; the pixels themselves are not modelled. */
  type PngEncoder = Canvas -> Base64Text

  /** The bitmap has no pixels: one of its dimensions is zero. */
  predicate NoPixels(c: Canvas) { c.width == 0 || c.height == 0 }

  /**
   `canvas.toDataURL('image/png')`: `data:,` for a bitmap without pixels,
   otherwise the PNG data URL of the encoded bitmap.
   */
  function ToDataUrl(c: Canvas, png: PngEncoder): (url: string)
    ensures url == EmptyDataUrl <==> NoPixels(c)
    ensures !NoPixels(c) ==> |url| > |PngHeader| && url[..|PngHeader|] == PngHeader
  {
    if NoPixels(c) then EmptyDataUrl else PngDataUrl(png(c))
  }

  /** The payload after the comma is the image's encoding, empty when the bitmap has no pixels. */
  lemma ToDataUrlPayload(c: Canvas, png: PngEncoder)
    ensures NoPixels(c) ==> Payload(ToDataUrl(c, png)) == Some("")
    ensures !NoPixels(c) ==> Payload(ToDataUrl(c, png)) == Some(png(c))
  {
    if NoPixels(c) {
      EmptyDataUrlPayload();
    } else {
      PngDataUrlRoundTrip(png(c));
    }
  }

  /** `handleConfirm`: the data URL of the canvas, when there is one. */
  function HandleConfirm(s: Surface, png: PngEncoder): (url: Option<string>)
    ensures url.Some? <==> s.canvas.Some?
    ensures url.Some? ==> url.value == ToDataUrl(s.canvas.value, png)
  {
    match s.canvas
    case None => None
    case Some(c) => Some(ToDataUrl(c, png))
  }

  /** The footer and header buttons' `disabled` rules. */
  predicate ConfirmEnabled(s: Surface) { s.hasDrawing && !s.isProcessing }
  predicate ClearEnabled(s: Surface) { !s.isProcessing }
  predicate CloseEnabled(s: Surface) { !s.isProcessing }

  /**
   What reaches the surface: the parent's `isOpen` and `isProcessing`
   properties changing, pointer events on the canvas (`PointerUp` stands for
   mouse-up, mouse-out and touch-end alike), and button clicks.
   */
  datatype Event =
    | Opened(container: Rect)
    | Closed
    | Processing(busy: bool)
    | PointerDown(ev: PointerEvent)
    | PointerMove(ev: PointerEvent)
    | PointerUp
    | ClickClear
    | ClickConfirm
    | ClickClose

  /** What the surface hands its parent. */
  datatype Emission = ConfirmedImage(dataUrl: string) | CloseRequested

  /** A press reaches `startDrawing` only while the canvas is rendered. */
  predicate Presses(s: Surface, e: Event) { e.PointerDown? && s.canvas.Some? }

  /** A release reaches `stopDrawing` only while the canvas is rendered. */
  predicate Releases(s: Surface, e: Event) { e.PointerUp? && s.canvas.Some? }

  /** The clear button is enabled and the canvas is there to erase. */
  predicate Clears(s: Surface, e: Event) { e.ClickClear? && ClearEnabled(s) && s.canvas.Some? }

  /** One event. Pointer events need the rendered canvas; disabled buttons ignore clicks. */
  function Next(s: Surface, e: Event): (t: Surface)
    ensures t.hasDrawing == (Presses(s, e) || (s.hasDrawing && !Clears(s, e)))
    ensures t.isDrawing == (Presses(s, e) || (s.isDrawing && !Releases(s, e)))
    ensures e.PointerMove? && !s.isDrawing ==> t == s
    ensures (e.PointerDown? || e.PointerMove? || e.PointerUp?) && s.canvas.None? ==> t == s
    ensures e.ClickClear? && !ClearEnabled(s) ==> t == s
    ensures Clears(s, e) ==> t.canvas.Some? && t.canvas.value.segments == [] && t.isProcessing == s.isProcessing
    ensures e.ClickConfirm? || e.ClickClose? ==> t == s
    ensures e.Processing? ==> t == s.(isProcessing := e.busy)
  {
    match e
    case Opened(container) => Open(s, container)
    case Closed => Close(s)
    case Processing(busy) => s.(isProcessing := busy)
    case PointerDown(ev) => if s.canvas.Some? then StartDrawing(s, ev) else s
    case PointerMove(ev) => if s.canvas.Some? then Draw(s, ev) else s
    case PointerUp => if s.canvas.Some? then StopDrawing(s) else s
    case ClickClear => if ClearEnabled(s) then ClearCanvas(s) else s
    case ClickConfirm => s
    case ClickClose => s
  }

  /**
   What an event hands the parent: an image for an enabled confirm, a close
   request for an enabled close. Both buttons exist only while the modal is open.
   */
  function Emit(s: Surface, e: Event, png: PngEncoder): (out: Option<Emission>)
    ensures out.Some? && out.value.ConfirmedImage? <==> e.ClickConfirm? && ConfirmEnabled(s) && s.canvas.Some?
    ensures out.Some? && out.value.ConfirmedImage? ==> out.value.dataUrl == ToDataUrl(s.canvas.value, png)
    ensures out == Some(CloseRequested) <==> e.ClickClose? && CloseEnabled(s) && s.canvas.Some?
  {
    match e
    case ClickConfirm =>
      if ConfirmEnabled(s) then
        match HandleConfirm(s, png)
        case Some(url) => Some(ConfirmedImage(url))
        case None => None
      else None
    case ClickClose => if CloseEnabled(s) && s.canvas.Some? then Some(CloseRequested) else None
    case _ => None
  }

  /** A confirm click the surface acts on: the button is enabled and the canvas is there. */
  predicate ConfirmAccepted(s: Surface, e: Event) { e.ClickConfirm? && ConfirmEnabled(s) && s.canvas.Some? }

  /** Every emission of a trace, oldest first. */
  function Emissions(s: Surface, evs: seq<Event>, png: PngEncoder): (out: seq<Emission>)
    decreases |evs|
  {
    if |evs| == 0 then []
    else
      var n := |evs| - 1;
      var pre := Emissions(s, evs[..n], png);
      match Emit(Trace.Run(Next, s, evs[..n]), evs[n], png)
      case Some(x) => pre + [x]
      case None => pre
  }

  /** How many of the emissions are images. */
  function ImageCount(out: seq<Emission>): (n: nat)
    decreases |out|
  {
    if |out| == 0 then 0
    else ImageCount(out[..|out| - 1]) + (if out[|out| - 1].ConfirmedImage? then 1 else 0)
  }

  /** How many events of the trace are confirm clicks the surface acts on. */
  function AcceptedConfirms(s: Surface, evs: seq<Event>): (n: nat)
    decreases |evs|
  {
    if |evs| == 0 then 0
    else
      var n := |evs| - 1;
      AcceptedConfirms(s, evs[..n]) + (if ConfirmAccepted(Trace.Run(Next, s, evs[..n]), evs[n]) then 1 else 0)
  }

  /** Over any trace, one image is emitted per accepted confirm click, and no other event emits one. */
  lemma {:induction false} ImagesMatchConfirms(s: Surface, evs: seq<Event>, png: PngEncoder)
    ensures ImageCount(Emissions(s, evs, png)) == AcceptedConfirms(s, evs)
    decreases |evs|
  {
    if |evs| > 0 {
      var n := |evs| - 1;
      ImagesMatchConfirms(s, evs[..n], png);
      var pre := Emissions(s, evs[..n], png);
      var out := Emit(Trace.Run(Next, s, evs[..n]), evs[n], png);
      if out.Some? {
        assert (pre + [out.value])[..|pre|] == pre;
      }
    }
  }

  /**
   `hasDrawing` after any trace holds exactly when a press has landed since
   the last effective clear (or, with no clear at all, it held at the start).
   */
  lemma {:induction false} HasDrawingIffPressSinceClear(s: Surface, evs: seq<Event>)
    ensures Trace.Run(Next, s, evs).hasDrawing
            <==> Trace.RaisedSinceReset(Next, Presses, Clears, s, evs)
                 || (s.hasDrawing && Trace.NeverReset(Next, Clears, s, evs))
  {
    Trace.Latch(Next, (t: Surface) => t.hasDrawing, Presses, Clears, s, evs);
  }

  /**
   `isDrawing` after any trace holds exactly when a press has landed since the
   last release; clearing the canvas does not end a stroke.
   */
  lemma {:induction false} IsDrawingIffPressSinceRelease(s: Surface, evs: seq<Event>)
    ensures Trace.Run(Next, s, evs).isDrawing
            <==> Trace.RaisedSinceReset(Next, Presses, Releases, s, evs)
                 || (s.isDrawing && Trace.NeverReset(Next, Releases, s, evs))
  {
    Trace.Latch(Next, (t: Surface) => t.isDrawing, Presses, Releases, s, evs);
  }

  /**
   After a release, a new stroke never joins the old one: the press paints
   nothing, the first move only places the cursor, and the second move paints
   from that first move's point.
   */
  lemma StrokesDoNotConnect(s: Surface, down: PointerEvent, m1: PointerEvent, m2: PointerEvent)
    requires s.canvas.Some?
    ensures var t := Trace.Run(Next, s, [PointerUp, PointerDown(down), PointerMove(m1)]);
            && t.canvas.Some? && t.isDrawing
            && t.canvas.value.segments == s.canvas.value.segments
            && t.canvas.value.cursor == Some(LocalPoint(m1))
    ensures var u := Trace.Run(Next, s, [PointerUp, PointerDown(down), PointerMove(m1), PointerMove(m2)]);
            && u.canvas.Some?
            && u.canvas.value.segments == s.canvas.value.segments + [Segment(LocalPoint(m1), LocalPoint(m2))]
  {
    var s1 := Next(s, PointerUp);
    var s2 := Next(s1, PointerDown(down));
    var s3 := Next(s2, PointerMove(m1));
    var s4 := Next(s3, PointerMove(m2));
    Trace.RunSnoc(Next, s, [], PointerUp);
    assert [] + [PointerUp] == [PointerUp];
    Trace.RunSnoc(Next, s, [PointerUp], PointerDown(down));
    assert [PointerUp] + [PointerDown(down)] == [PointerUp, PointerDown(down)];
    Trace.RunSnoc(Next, s, [PointerUp, PointerDown(down)], PointerMove(m1));
    assert [PointerUp, PointerDown(down)] + [PointerMove(m1)] == [PointerUp, PointerDown(down), PointerMove(m1)];
    Trace.RunSnoc(Next, s, [PointerUp, PointerDown(down), PointerMove(m1)], PointerMove(m2));
    assert [PointerUp, PointerDown(down), PointerMove(m1)] + [PointerMove(m2)]
        == [PointerUp, PointerDown(down), PointerMove(m1), PointerMove(m2)];
    assert Trace.Run(Next, s, []) == s;
    assert s1.canvas.Some? && s1.canvas.value.cursor.None? && !s1.isDrawing;
    assert s2.canvas == s1.canvas && s2.isDrawing;
    assert s3.canvas.Some? && s3.canvas.value.segments == s.canvas.value.segments;
  }

  /**
   Closing and reopening blanks the canvas but keeps `hasDrawing`, so the
   confirm button stays enabled over an empty bitmap.
   */
  lemma ReopenKeepsHasDrawing(s: Surface, container: Rect)
    requires s.canvas.Some? && s.hasDrawing && !s.isProcessing
    ensures var t := Trace.Run(Next, s, [Closed, Opened(container)]);
            && t.canvas.Some? && t.canvas.value.segments == []
            && ConfirmEnabled(t)
  {
    Trace.RunSnoc(Next, s, [], Closed);
    assert [] + [Closed] == [Closed];
    Trace.RunSnoc(Next, s, [Closed], Opened(container));
    assert [Closed] + [Opened(container)] == [Closed, Opened(container)];
    assert Trace.Run(Next, s, []) == s;
  }

  /** A confirm emits the image exactly once per enabled click, and nothing else emits one. */
  lemma ConfirmEmitsOnce(s: Surface, png: PngEncoder)
    requires ConfirmEnabled(s) && s.canvas.Some?
    ensures Emissions(s, [ClickConfirm], png) == [ConfirmedImage(ToDataUrl(s.canvas.value, png))]
  {
    assert [ClickConfirm][..0] == [];
  }
}

=== FILE: handwriting_recognition.dfy ===
/**
 The recognition hook: `recognizeHandwriting` takes the data URL the capture
 surface emitted, checks the API key, strips the data URL header, sends one
 request to the vision model and reduces the reply, or the thrown error, to a
 returned text or `null` plus the hook's `error` and `isRecognizing` state.

 The service is not modelled; how its call settles is an input. The function
 is asynchronous: `Begin` is the part before the `await`, `Finish` the part
 after it, so overlapping calls can be interleaved; `Recognize` is one call
 with nothing interleaved.
 */
module HandwritingRecognition {
  import opened Wrappers
  import opened JsString
  import opened DataUrl

  const ModelId: string := "gemini-2.5-flash"
  const Instruction: string :=
    "Identify the handwritten mathematical formula, number, or text in this image. Return ONLY the recognized text/formula without any markdown formatting or explanation. e.g., Mm/r\U{00B2}, \U{221A}(GM/R)"
  const ImageMimeType: string := "image/png"

  const KeyMissingMessage: string := "API Key is missing"
  const NotReadyMessage: string := "Model not ready or network error."
  const FallbackMessage: string := "Failed to recognize handwriting"

  /** The one request a call sends: model, instruction, and the image part (`data` may be `undefined`). */
  datatype Request = Request(model: string, instruction: string, mimeType: string, data: Option<string>)

  /** How the service call settles: a reply whose `text` may be absent, or a thrown error whose `message` may be absent. */
  datatype Outcome = Responded(text: Option<string>) | Threw(message: Option<string>)

  /** The hook's React state. */
  datatype HookState = HookState(isRecognizing: bool, error: Option<string>)

  const Idle := HookState(false, None)

  /** JavaScript truthiness of a `string | undefined`. */
  predicate Truthy(s: Option<string>) { s.Some? && s.value != "" }

  /** The request for an image data URL: its payload is whatever follows the first comma. */
  function RequestFor(image: string): (r: Request)
    ensures r.model == ModelId && r.instruction == Instruction && r.mimeType == ImageMimeType
    ensures r.data.Some? <==> ',' in image
  {
    Request(ModelId, Instruction, ImageMimeType, Payload(image))
  }

  /** The synchronous start of a call: rejected for want of a key, or in flight with its request sent. */
  datatype Started = KeyMissing(state: HookState) | InFlight(state: HookState, request: Request)

  /**
   Up to the `await`: a falsy key sets the error and stops, leaving
   `isRecognizing` as it was; otherwise `isRecognizing` rises, the error
   clears and the request goes out. Nothing checks for a call already in flight.
   */
  function Begin(st: HookState, apiKey: Option<string>, image: string): (b: Started)
    ensures b.KeyMissing? <==> !Truthy(apiKey)
    ensures b.KeyMissing? ==> b.state.error == Some(KeyMissingMessage) && b.state.isRecognizing == st.isRecognizing
    ensures b.InFlight? ==> b.state.isRecognizing && b.state.error.None? && b.request == RequestFor(image)
  {
    if !Truthy(apiKey) then KeyMissing(st.(error := Some(KeyMissingMessage)))
    else InFlight(HookState(true, None), RequestFor(image))
  }

  /**
   The message a thrown error leaves: the not-ready text when the error's
   message mentions 404, else the message itself, else a fixed fallback.
   It is never empty, so a failure always shows.
   */
  function ErrorMessage(message: Option<string>): (m: string)
    ensures m != ""
    ensures message.Some? && Includes(message.value, "404") ==> m == NotReadyMessage
    ensures !(message.Some? && Includes(message.value, "404")) && Truthy(message) ==> m == message.value
    ensures !Truthy(message) ==> m == FallbackMessage
  {
    if message.Some? && Includes(message.value, "404") then NotReadyMessage
    else if Truthy(message) then message.value
    else FallbackMessage
  }

  /** How a call returns: the hook state afterwards and the value (`null` as `None`). */
  datatype Settled = Settled(state: HookState, value: Option<string>)

  /**
   After the `await`: a reply returns its trimmed text when the text is
   truthy and `null` otherwise, leaving the error alone; a thrown error sets
   the error and returns `null`. Either way `isRecognizing` falls.
   */
  function Finish(st: HookState, outcome: Outcome): (r: Settled)
    ensures !r.state.isRecognizing
    ensures outcome.Responded? ==> r.state.error == st.error
    ensures outcome.Threw? ==> r.state.error == Some(ErrorMessage(outcome.message))
    ensures r.value.Some? <==> outcome.Responded? && Truthy(outcome.text)
    ensures r.value.Some? ==> r.value.value == Trim(outcome.text.value)
  {
    match outcome
    case Responded(text) =>
      Settled(st.(isRecognizing := false), if Truthy(text) then Some(Trim(text.value)) else None)
    case Threw(message) =>
      Settled(HookState(false, Some(ErrorMessage(message))), None)
  }

  /**
   One call, start to end: the value returned, the state afterwards, every
   value `isRecognizing` was set to, and every request sent.
   */
  datatype Call = Call(value: Option<string>, state: HookState, recognizing: seq<bool>, requests: seq<Request>)

  function Recognize(st: HookState, apiKey: Option<string>, image: string, outcome: Outcome): (c: Call)
    ensures !Truthy(apiKey) ==>
      c == Call(None, st.(error := Some(KeyMissingMessage)), [], [])
    ensures Truthy(apiKey) ==>
      && c.recognizing == [true, false] && !c.state.isRecognizing
      && c.requests == [RequestFor(image)]
      && (c.state.error.Some? <==> outcome.Threw?)
    ensures c.value.Some? <==> Truthy(apiKey) && outcome.Responded? && Truthy(outcome.text)
    ensures c.value.Some? ==> c.value.value == Trim(outcome.text.value) && c.state.error.None?
    ensures Truthy(apiKey) && outcome.Threw? ==> c.state.error == Some(ErrorMessage(outcome.message))
  {
    match Begin(st, apiKey, image)
    case KeyMissing(st') => Call(None, st', [], [])
    case InFlight(st', request) =>
      var r := Finish(st', outcome);
      Call(r.value, r.state, [true, false], [request])
  }

  /** The image the surface encoded is exactly what the request carries. */
  lemma RequestCarriesCanvasPayload(st: HookState, apiKey: Option<string>, payload: Base64Text, outcome: Outcome)
    requires Truthy(apiKey)
    ensures Recognize(st, apiKey, PngDataUrl(payload), outcome).requests
            == [Request(ModelId, Instruction, ImageMimeType, Some(payload))]
  {
    PngDataUrlRoundTrip(payload);
  }

  /** A reply of nothing but white space is truthy, so it returns the empty string rather than `null`. */
  lemma WhiteSpaceReplyReturnsEmpty(st: HookState, apiKey: Option<string>, image: string, text: string)
    requires Truthy(apiKey) && text != "" && AllWhiteSpace(text)
    ensures Recognize(st, apiKey, image, Responded(Some(text))).value == Some("")
  {
  }

  /** An empty or absent reply returns `null` and sets no error. */
  lemma EmptyReplyIsNotAnError(st: HookState, apiKey: Option<string>, image: string, text: Option<string>)
    requires Truthy(apiKey) && !Truthy(text)
    ensures var c := Recognize(st, apiKey, image, Responded(text));
            c.value.None? && c.state.error.None?
  {
  }

  /**
   Nothing guards against overlapping calls. With two in flight, both send
   their request; when the first settles `isRecognizing` falls although the
   second is still waiting; and if the first threw, its error outlives the
   second's successful reply.
   */
  lemma OverlappingCalls(st: HookState, apiKey: Option<string>, image1: string, image2: string,
                         message: Option<string>, text: string)
    requires Truthy(apiKey) && text != ""
    ensures var a := Begin(st, apiKey, image1);
            var b := Begin(a.state, apiKey, image2);
            var ra := Finish(b.state, Threw(message));
            var rb := Finish(ra.state, Responded(Some(text)));
            && a.InFlight? && a.state.isRecognizing
            && b.InFlight? && b.request == RequestFor(image2)
            && !ra.state.isRecognizing
            && rb.value == Some(Trim(text))
            && rb.state.error == Some(ErrorMessage(message))
  {
  }
}

=== FILE: js_string.dfy ===
/**
 The few JavaScript string operations the recognition path relies on, with the
 exact ECMAScript behaviour: `split` with a one-character separator, `includes`,
 and `trim`. JavaScript strings are sequences of UTF-16 code units; here they
 are sequences of Dafny `char`, which are Unicode scalar values, so a lone
 surrogate cannot be written and a character outside the Basic Multilingual
 Plane is one `char` rather than two. Neither matters for the comma separator
 or for the white-space set, which lie inside the Basic Multilingual Plane.
 */
module JsString {

  /** `a.join(sep)` for a non-empty array: the inverse of `Split`. */
  function Join(pieces: seq<string>, sep: char): (s: string)
    requires |pieces| >= 1
    decreases |pieces|
  {
    if |pieces| == 1 then pieces[0] else pieces[0] + [sep] + Join(pieces[1..], sep)
  }

  /**
   `s.split(sep)`: the maximal separator-free pieces, in order. The empty string
   splits into one empty piece, as in JavaScript.
   */
  function Split(s: string, sep: char): (pieces: seq<string>)
    ensures |pieces| >= 1
    ensures forall i :: 0 <= i < |pieces| ==> sep !in pieces[i]
    ensures Join(pieces, sep) == s
    ensures |pieces| == 1 <==> sep !in s
    decreases |s|
  {
    if |s| == 0 then [""]
    else
      var rest := Split(s[1..], sep);
      if s[0] == sep then
        assert s == [sep] + s[1..];
        [""] + rest
      else
        var r := [[s[0]] + rest[0]] + rest[1..];
        assert r[1..] == rest[1..];
        assert s == [s[0]] + s[1..];
        r
  }

  /** Splitting a string with a known first character. */
  lemma SplitCons(c: char, rest: string, sep: char)
    ensures Split([c] + rest, sep)
            == if c == sep then [""] + Split(rest, sep)
               else [[c] + Split(rest, sep)[0]] + Split(rest, sep)[1..]
  {
    assert ([c] + rest)[1..] == rest;
  }

  /** Splitting the join of separator-free pieces gives the pieces back. */
  lemma {:induction false} SplitJoin(pieces: seq<string>, sep: char)
    requires |pieces| >= 1
    requires forall i :: 0 <= i < |pieces| ==> sep !in pieces[i]
    ensures Split(Join(pieces, sep), sep) == pieces
    decreases |pieces|, |pieces[0]|
  {
    var p := pieces[0];
    if |p| == 0 {
      if |pieces| > 1 {
        var tail := Join(pieces[1..], sep);
        assert Join(pieces, sep) == [sep] + tail;
        SplitJoin(pieces[1..], sep);
        SplitCons(sep, tail, sep);
        assert [""] + pieces[1..] == pieces;
      }
    } else {
      var shorter := [p[1..]] + pieces[1..];
      assert shorter[1..] == pieces[1..];
      assert p == [p[0]] + p[1..];
      assert forall i :: 0 <= i < |shorter| ==> sep !in shorter[i] by {
        forall i | 0 <= i < |shorter|
          ensures sep !in shorter[i]
        {
          if i > 0 { assert shorter[i] == pieces[i]; }
        }
      }
      SplitJoin(shorter, sep);
      JoinFirstChar(pieces, shorter, sep);
      SplitCons(p[0], Join(shorter, sep), sep);
      assert [[p[0]] + shorter[0]] + shorter[1..] == pieces;
    }
  }

  /** Taking the first character off the first piece takes it off the join. */
  lemma JoinFirstChar(pieces: seq<string>, shorter: seq<string>, sep: char)
    requires |pieces| >= 1 && |pieces[0]| > 0
    requires shorter == [pieces[0][1..]] + pieces[1..]
    ensures Join(pieces, sep) == [pieces[0][0]] + Join(shorter, sep)
  {
    var p := pieces[0];
    assert p == [p[0]] + p[1..];
    assert shorter[1..] == pieces[1..];
  }

  /** `s.includes(sub)`: `sub` occurs in `s` at some position. */
  predicate Includes(s: string, sub: string) {
    exists i :: 0 <= i <= |s| - |sub| && OccursAt(s, sub, i)
  }

  predicate OccursAt(s: string, sub: string, i: int)
    requires 0 <= i <= |s| - |sub|
  {
    s[i..i + |sub|] == sub
  }

  /**
   The characters `String.prototype.trim` removes: the ECMAScript WhiteSpace
   production (tab, vertical tab, form feed, space, no-break space, the byte
   order mark and every other space separator of Unicode category Zs) and the
   LineTerminator production (line feed, carriage return, line and paragraph
   separators).
   */
  predicate IsWhiteSpace(c: char) {
    || c == '\t' || c == '\U{000B}' || c == '\U{000C}' || c == ' '
    || c == '\U{00A0}' || c == '\U{FEFF}' || c == '\U{1680}'
    || ('\U{2000}' <= c <= '\U{200A}')
    || c == '\U{202F}' || c == '\U{205F}' || c == '\U{3000}'
    || c == '\n' || c == '\r' || c == '\U{2028}' || c == '\U{2029}'
  }

  predicate AllWhiteSpace(s: string) {
    forall i :: 0 <= i < |s| ==> IsWhiteSpace(s[i])
  }

  /** The number of white-space characters at the start of `s`. */
  function LeadingSpace(s: string): (n: nat)
    ensures n <= |s|
    ensures forall i :: 0 <= i < n ==> IsWhiteSpace(s[i])
    ensures n < |s| ==> !IsWhiteSpace(s[n])
    decreases |s|
  {
    if |s| > 0 && IsWhiteSpace(s[0]) then 1 + LeadingSpace(s[1..]) else 0
  }

  /** The number of white-space characters at the end of `s`. */
  function TrailingSpace(s: string): (n: nat)
    ensures n <= |s|
    ensures forall i :: |s| - n <= i < |s| ==> IsWhiteSpace(s[i])
    ensures n < |s| ==> !IsWhiteSpace(s[|s| - n - 1])
    decreases |s|
  {
    if |s| > 0 && IsWhiteSpace(s[|s| - 1]) then 1 + TrailingSpace(s[..|s| - 1]) else 0
  }

  /** `r` occurs in `s` at offset `a`, with nothing but white space before and after it. */
  predicate SurroundedBySpace(s: string, r: string, a: nat)
    requires a + |r| <= |s|
  {
    && s[a..a + |r|] == r
    && (forall i :: 0 <= i < a ==> IsWhiteSpace(s[i]))
    && (forall i :: a + |r| <= i < |s| ==> IsWhiteSpace(s[i]))
  }

  /**
   `s.trim()`: the infix of `s` left after removing white space at both ends.
   It is empty exactly when `s` is all white space.
   */
  function Trim(s: string): (r: string)
    ensures exists a :: 0 <= a <= |s| - |r| && SurroundedBySpace(s, r, a)
    ensures r == [] || (!IsWhiteSpace(r[0]) && !IsWhiteSpace(r[|r| - 1]))
    ensures r == [] <==> AllWhiteSpace(s)
  {
    var a := LeadingSpace(s);
    if a == |s| then
      assert SurroundedBySpace(s, [], a);
      []
    else
      var b := |s| - TrailingSpace(s);
      assert a < b;
      assert SurroundedBySpace(s, s[a..b], a);
      s[a..b]
  }

  /** Trimming twice is trimming once. */
  lemma TrimIdempotent(s: string)
    ensures Trim(Trim(s)) == Trim(s)
  {
    var r := Trim(s);
    TrimFixesTrimmed(r);
  }

  /** A string with no white space at either end is its own trim. */
  lemma TrimFixesTrimmed(s: string)
    requires s == [] || (!IsWhiteSpace(s[0]) && !IsWhiteSpace(s[|s| - 1]))
    ensures Trim(s) == s
  {
    if s != [] {
      assert LeadingSpace(s) == 0;
      assert TrailingSpace(s) == 0;
    }
  }
}

=== FILE: mole_lesson.dfy ===
/**
 The "one mole of oxygen" lesson page: a macro/micro view toggle, an amount
 of oxygen `moles` set by a slider, the quantities derived from it, and an
 agent challenge in which two timers first move the slider to a random amount
 and then hand the question to the student, whose answer stays hidden until
 revealed.

 `moles` is kept exactly as a whole number of tenths. The two `setTimeout`
 callbacks are events that can only fire after being scheduled; nothing ever
 cancels them. `Math.random()` is an event parameter.
 */
module MoleLesson {
  import Trace

  datatype ViewMode = Macro | Micro

  /** A value of `Math.random()`. */
  type UnitDraw = r: real | 0.0 <= r < 1.0

  /**
   A slider reading in tenths of a mole: the range input runs from 0.1 to 5.0
   in steps of 0.1, and the browser only reports values on that grid.
   */
  type SliderTenths = k: int | 1 <= k <= 50 witness 10

  /**
   The page state: the view, the amount in tenths of a mole, the three
   challenge flags, and how many move and ask timers are scheduled and have
   not fired yet.
   */
  datatype Lesson = Lesson(
    view: ViewMode,
    tenths: int,
    isAiControlling: bool,
    challengeMode: bool,
    answerHidden: bool,
    pendingMoves: nat,
    pendingAsks: nat)

  const Initial := Lesson(Macro, 10, false, false, false, 0, 0)

  function Moles(l: Lesson): (m: real) {
    l.tenths as real / 10.0
  }

  /** The Avogadro constant as the page shows it, in units of 10^23 per mole. */
  const Avogadro: real := 6.02
  const MolarVolumeStp: real := 22.4
  const MolarMassO2: real := 32.0

  function VolumeLiters(moles: real): (v: real) { moles * MolarVolumeStp }
  function MassGrams(moles: real): (g: real) { moles * MolarMassO2 }
  function MoleculesE23(moles: real): (n: real) { moles * Avogadro }

  /** Each displayed quantity is linear in the amount, with the page's constants as slopes. */
  lemma ConversionsLinear(a: real, b: real, k: real)
    ensures VolumeLiters(a + b) == VolumeLiters(a) + VolumeLiters(b) && VolumeLiters(k * a) == k * VolumeLiters(a)
    ensures MassGrams(a + b) == MassGrams(a) + MassGrams(b) && MassGrams(k * a) == k * MassGrams(a)
    ensures MoleculesE23(a + b) == MoleculesE23(a) + MoleculesE23(b) && MoleculesE23(k * a) == k * MoleculesE23(a)
    ensures VolumeLiters(1.0) == 22.4 && MassGrams(1.0) == 32.0 && MoleculesE23(1.0) == 6.02
  {
  }

  /**
   The amount the agent picks, in tenths: `floor((r * 4.5 + 0.5) * 10)`,
   which for a draw in [0, 1) lies between 0.5 and 4.9 mol.
   */
  function AiTenths(r: UnitDraw): (k: int)
    ensures 5 <= k <= 49
  {
    ((r * 4.5 + 0.5) * 10.0).Floor
  }

  /** `startAiChallenge`: raise the three flags and schedule the move timer; the amount stays. */
  function StartAiChallenge(l: Lesson): (t: Lesson)
    ensures t.isAiControlling && t.challengeMode && t.answerHidden
    ensures t.tenths == l.tenths && t.view == l.view
    ensures t.pendingMoves == l.pendingMoves + 1 && t.pendingAsks == l.pendingAsks
  {
    l.(isAiControlling := true, challengeMode := true, answerHidden := true, pendingMoves := l.pendingMoves + 1)
  }

  /** The move timer fires: set the random amount and schedule the ask timer. Nothing else changes. */
  function AiMove(l: Lesson, r: UnitDraw): (t: Lesson)
    requires l.pendingMoves > 0
    ensures 0.5 <= Moles(t) <= 4.9 && t.tenths == AiTenths(r)
    ensures t.isAiControlling == l.isAiControlling && t.challengeMode == l.challengeMode
    ensures t.answerHidden == l.answerHidden && t.view == l.view
    ensures t.pendingMoves == l.pendingMoves - 1 && t.pendingAsks == l.pendingAsks + 1
  {
    l.(tenths := AiTenths(r), pendingMoves := l.pendingMoves - 1, pendingAsks := l.pendingAsks + 1)
  }

  /** The ask timer fires: the agent lets go of the slider. Nothing else changes. */
  function AiAsk(l: Lesson): (t: Lesson)
    requires l.pendingAsks > 0
    ensures !t.isAiControlling
    ensures t.tenths == l.tenths && t.challengeMode == l.challengeMode
    ensures t.answerHidden == l.answerHidden && t.view == l.view
    ensures t.pendingMoves == l.pendingMoves && t.pendingAsks == l.pendingAsks - 1
  {
    l.(isAiControlling := false, pendingAsks := l.pendingAsks - 1)
  }

  /** `revealAnswer`: only the answer mask lifts. */
  function RevealAnswer(l: Lesson): (t: Lesson)
    ensures !t.answerHidden && t == l.(answerHidden := false)
  {
    l.(answerHidden := false)
  }

  /** `exitChallenge`: leave challenge mode and lift the mask; the amount and the agent flag stay. */
  function ExitChallenge(l: Lesson): (t: Lesson)
    ensures !t.challengeMode && !t.answerHidden
    ensures t.tenths == l.tenths && t.isAiControlling == l.isAiControlling
    ensures t.pendingMoves == l.pendingMoves && t.pendingAsks == l.pendingAsks && t.view == l.view
  {
    l.(challengeMode := false, answerHidden := false)
  }

  /** The slider's `onChange`: the reading is taken only outside challenge mode. */
  function SliderChange(l: Lesson, k: SliderTenths): (t: Lesson)
    ensures l.challengeMode ==> t == l
    ensures !l.challengeMode ==> t == l.(tenths := k)
  {
    if !l.challengeMode then l.(tenths := k) else l
  }

  /**
   What reaches the page: the two view buttons, a click on the gas tank, the
   challenge button (shown as "test me" outside a challenge and as "another
   one" once the answer is revealed), the reveal and exit buttons, the
   slider, and the two timers.
   */
  datatype Event =
    | ClickMacro
    | ClickMicro
    | ClickTank
    | ClickChallenge
    | ClickReveal
    | ClickExit
    | Slide(k: SliderTenths)
    | MoveTimer(r: UnitDraw)
    | AskTimer

  /** Whether the control the event comes from is on screen (and enabled). */
  predicate Available(l: Lesson, e: Event) {
    match e
    case ClickChallenge => !l.challengeMode || !l.answerHidden
    case ClickReveal => l.challengeMode && l.answerHidden
    case ClickExit => l.challengeMode && !l.answerHidden
    case Slide(_) => !l.challengeMode
    case MoveTimer(_) => l.pendingMoves > 0
    case AskTimer => l.pendingAsks > 0
    case _ => true
  }

  function Next(l: Lesson, e: Event): (t: Lesson)
    ensures !Available(l, e) ==> t == l
    ensures e.ClickMacro? ==> t == l.(view := Macro)
    ensures e.ClickMicro? || e.ClickTank? ==> t == l.(view := Micro)
    ensures l.challengeMode && e.Slide? ==> t.tenths == l.tenths
    ensures Available(l, e) && e.ClickChallenge? ==> t.challengeMode && t.answerHidden && t.isAiControlling
    ensures Available(l, e) && e.ClickReveal? ==> t.challengeMode && !t.answerHidden
    ensures Available(l, e) && e.ClickExit? ==> !t.challengeMode && !t.answerHidden && t.tenths == l.tenths
  {
    if !Available(l, e) then l
    else
      match e
      case ClickMacro => l.(view := Macro)
      case ClickMicro => l.(view := Micro)
      case ClickTank => l.(view := Micro)
      case ClickChallenge => StartAiChallenge(l)
      case ClickReveal => RevealAnswer(l)
      case ClickExit => ExitChallenge(l)
      case Slide(k) => SliderChange(l, k)
      case MoveTimer(r) => AiMove(l, r)
      case AskTimer => AiAsk(l)
  }

  /**
   What holds on every reachable page: the amount is on the slider's grid of
   0.1 to 5.0 mol, the answer is only hidden during a challenge, and while the
   agent holds the slider some timer is still due to fire.
   */
  ghost predicate Valid(l: Lesson) {
    && 1 <= l.tenths <= 50
    && (l.answerHidden ==> l.challengeMode)
    && (l.isAiControlling ==> l.pendingMoves + l.pendingAsks > 0)
  }

  lemma NextKeepsValid(l: Lesson, e: Event)
    requires Valid(l)
    ensures Valid(Next(l, e))
  {
  }

  lemma {:induction false} ReachableValid(evs: seq<Event>)
    ensures Valid(Trace.Run(Next, Initial, evs))
    decreases |evs|
  {
    if |evs| > 0 {
      ReachableValid(evs[..|evs| - 1]);
      NextKeepsValid(Trace.Run(Next, Initial, evs[..|evs| - 1]), evs[|evs| - 1]);
    }
  }

  function Repeat(e: Event, n: nat): (evs: seq<Event>)
    ensures |evs| == n && forall i :: 0 <= i < n ==> evs[i] == e
  {
    seq(n, _ => e)
  }

  /** Firing `n` scheduled move timers with the same draw. */
  lemma {:induction false} MovesFire(l: Lesson, r: UnitDraw, n: nat)
    requires n <= l.pendingMoves
    ensures Trace.Run(Next, l, Repeat(MoveTimer(r), n))
            == l.(tenths := if n == 0 then l.tenths else AiTenths(r),
                  pendingMoves := l.pendingMoves - n, pendingAsks := l.pendingAsks + n)
    decreases n
  {
    if n > 0 {
      MovesFire(l, r, n - 1);
      assert Repeat(MoveTimer(r), n)[..n - 1] == Repeat(MoveTimer(r), n - 1);
    }
  }

  /** Firing `n` scheduled ask timers. */
  lemma {:induction false} AsksFire(l: Lesson, n: nat)
    requires n <= l.pendingAsks
    ensures Trace.Run(Next, l, Repeat(AskTimer, n))
            == l.(isAiControlling := if n == 0 then l.isAiControlling else false,
                  pendingAsks := l.pendingAsks - n)
    decreases n
  {
    if n > 0 {
      AsksFire(l, n - 1);
      assert Repeat(AskTimer, n)[..n - 1] == Repeat(AskTimer, n - 1);
    }
  }

  /**
   The agent always lets go: once every scheduled timer has fired, the slider
   is back under the student's control and no timer is left.
   */
  lemma AgentReleasesSlider(l: Lesson, r: UnitDraw)
    requires Valid(l)
    ensures var evs := Repeat(MoveTimer(r), l.pendingMoves) + Repeat(AskTimer, l.pendingAsks + l.pendingMoves);
            var t := Trace.Run(Next, l, evs);
            !t.isAiControlling && t.pendingMoves == 0 && t.pendingAsks == 0 && Valid(t)
  {
    var moves := Repeat(MoveTimer(r), l.pendingMoves);
    var asks := Repeat(AskTimer, l.pendingAsks + l.pendingMoves);
    Trace.RunAppend(Next, l, moves, asks);
    MovesFire(l, r, l.pendingMoves);
    var m := Trace.Run(Next, l, moves);
    AsksFire(m, l.pendingAsks + l.pendingMoves);
  }

  /**
   Leaving the challenge does not cancel the timers: started, revealed at
   once and left, the page still has the agent take the slider and change the
   amount after the challenge is over.
   */
  lemma ExitLeavesTimersRunning(r: UnitDraw)
    ensures var t := Trace.Run(Next, Initial, [ClickChallenge, ClickReveal, ClickExit, MoveTimer(r)]);
            && !t.challengeMode && t.isAiControlling
            && t.tenths == AiTenths(r) && t.pendingAsks == 1
  {
    var l1 := Next(Initial, ClickChallenge);
    var l2 := Next(l1, ClickReveal);
    var l3 := Next(l2, ClickExit);
    Trace.RunSnoc(Next, Initial, [], ClickChallenge);
    assert [] + [ClickChallenge] == [ClickChallenge];
    Trace.RunSnoc(Next, Initial, [ClickChallenge], ClickReveal);
    assert [ClickChallenge] + [ClickReveal] == [ClickChallenge, ClickReveal];
    Trace.RunSnoc(Next, Initial, [ClickChallenge, ClickReveal], ClickExit);
    assert [ClickChallenge, ClickReveal] + [ClickExit] == [ClickChallenge, ClickReveal, ClickExit];
    Trace.RunSnoc(Next, Initial, [ClickChallenge, ClickReveal, ClickExit], MoveTimer(r));
    assert [ClickChallenge, ClickReveal, ClickExit] + [MoveTimer(r)]
        == [ClickChallenge, ClickReveal, ClickExit, MoveTimer(r)];
    assert Trace.Run(Next, Initial, []) == Initial;
  }

  /** The hidden answer of a challenge: between 0.5 x 6.02 and 4.9 x 6.02 (x 10^23) molecules. */
  lemma ChallengeAnswerRange(l: Lesson, r: UnitDraw)
    requires l.pendingMoves > 0
    ensures 3.01 <= MoleculesE23(Moles(AiMove(l, r))) <= 29.498
  {
  }
}

=== FILE: trace.dfy ===
/**
 Event traces: a component is a state plus a transition function, and a trace
 is the sequence of events it receives, applied in arrival order.
 */
module Trace {

  /** The state after applying `evs` to `s`, oldest event first. */
  function Run<S, E>(next: (S, E) -> S, s: S, evs: seq<E>): S
    decreases |evs|
  {
    if |evs| == 0 then s else next(Run(next, s, evs[..|evs| - 1]), evs[|evs| - 1])
  }

  /** Running one more event is one more step. */
  lemma RunSnoc<S, E>(next: (S, E) -> S, s: S, evs: seq<E>, e: E)
    ensures Run(next, s, evs + [e]) == next(Run(next, s, evs), e)
  {
    assert (evs + [e])[..|evs|] == evs;
  }

  /** Running two traces back to back is running their concatenation. */
  lemma {:induction false} RunAppend<S, E>(next: (S, E) -> S, s: S, a: seq<E>, b: seq<E>)
    ensures Run(next, s, a + b) == Run(next, Run(next, s, a), b)
    decreases |b|
  {
    if |b| == 0 {
      assert a + b == a;
    } else {
      var n := |b| - 1;
      RunAppend(next, s, a, b[..n]);
      assert (a + b)[..|a + b| - 1] == a + b[..n];
    }
  }

  /** The state in which event `i` of the trace arrives. */
  function Before<S, E>(next: (S, E) -> S, s: S, evs: seq<E>, i: nat): S
    requires i <= |evs|
  {
    Run(next, s, evs[..i])
  }

  /** Some event raised the flag and no later event reset it. */
  ghost predicate RaisedSinceReset<S, E>(next: (S, E) -> S, raise: (S, E) -> bool, reset: (S, E) -> bool, s: S, evs: seq<E>) {
    exists i :: 0 <= i < |evs| && raise(Before(next, s, evs, i), evs[i])
      && forall j :: i < j < |evs| ==> !reset(Before(next, s, evs, j), evs[j])
  }

  /** No event of the trace reset the flag. */
  ghost predicate NeverReset<S, E>(next: (S, E) -> S, reset: (S, E) -> bool, s: S, evs: seq<E>) {
    forall j :: 0 <= j < |evs| ==> !reset(Before(next, s, evs, j), evs[j])
  }

  /** Extending a trace does not change the states its earlier events arrived in. */
  lemma BeforePrefix<S, E>(next: (S, E) -> S, s: S, evs: seq<E>, i: nat)
    requires i < |evs|
    ensures Before(next, s, evs, i) == Before(next, s, evs[..|evs| - 1], i)
  {
    assert evs[..i] == evs[..|evs| - 1][..i];
  }

  /** An event that raises the flag makes the trace one that raised it since any reset. */
  lemma RaiseStep<S, E>(next: (S, E) -> S, raise: (S, E) -> bool, reset: (S, E) -> bool, s: S, evs: seq<E>)
    requires |evs| > 0
    requires raise(Before(next, s, evs, |evs| - 1), evs[|evs| - 1])
    ensures RaisedSinceReset(next, raise, reset, s, evs)
  {
  }

  /** An event that resets the flag leaves no earlier raise standing. */
  lemma ResetStep<S, E>(next: (S, E) -> S, raise: (S, E) -> bool, reset: (S, E) -> bool, s: S, evs: seq<E>)
    requires |evs| > 0
    requires !raise(Before(next, s, evs, |evs| - 1), evs[|evs| - 1])
    requires reset(Before(next, s, evs, |evs| - 1), evs[|evs| - 1])
    ensures !RaisedSinceReset(next, raise, reset, s, evs)
    ensures !NeverReset(next, reset, s, evs)
  {
  }

  /** The earlier events of a trace met the same states in the trace without its last event. */
  lemma SharedPrefix<S, E>(next: (S, E) -> S, s: S, evs: seq<E>)
    requires |evs| > 0
    ensures forall i :: 0 <= i < |evs| - 1 ==>
      Before(next, s, evs, i) == Before(next, s, evs[..|evs| - 1], i) && evs[i] == evs[..|evs| - 1][i]
  {
    forall i | 0 <= i < |evs| - 1
      ensures Before(next, s, evs, i) == Before(next, s, evs[..|evs| - 1], i)
    {
      BeforePrefix(next, s, evs, i);
    }
  }

  /** A raise standing after a quiet last event was already standing before it. */
  lemma QuietRaisedBefore<S, E>(next: (S, E) -> S, raise: (S, E) -> bool, reset: (S, E) -> bool, s: S, evs: seq<E>)
    requires |evs| > 0
    requires !raise(Before(next, s, evs, |evs| - 1), evs[|evs| - 1])
    requires RaisedSinceReset(next, raise, reset, s, evs)
    ensures RaisedSinceReset(next, raise, reset, s, evs[..|evs| - 1])
  {
    var pre := evs[..|evs| - 1];
    var i :| 0 <= i < |evs| && raise(Before(next, s, evs, i), evs[i])
      && forall j :: i < j < |evs| ==> !reset(Before(next, s, evs, j), evs[j]);
    BeforePrefix(next, s, evs, i);
    assert raise(Before(next, s, pre, i), pre[i]);
    forall j | i < j < |pre|
      ensures !reset(Before(next, s, pre, j), pre[j])
    {
      BeforePrefix(next, s, evs, j);
      assert !reset(Before(next, s, evs, j), evs[j]);
    }
  }

  /** A raise standing before a last event that does not reset stays standing after it. */
  lemma QuietRaisedAfter<S, E>(next: (S, E) -> S, raise: (S, E) -> bool, reset: (S, E) -> bool, s: S, evs: seq<E>)
    requires |evs| > 0
    requires !reset(Before(next, s, evs, |evs| - 1), evs[|evs| - 1])
    requires RaisedSinceReset(next, raise, reset, s, evs[..|evs| - 1])
    ensures RaisedSinceReset(next, raise, reset, s, evs)
  {
    var pre := evs[..|evs| - 1];
    var i :| 0 <= i < |pre| && raise(Before(next, s, pre, i), pre[i])
      && forall j :: i < j < |pre| ==> !reset(Before(next, s, pre, j), pre[j]);
    BeforePrefix(next, s, evs, i);
    assert raise(Before(next, s, evs, i), evs[i]);
    forall j | i < j < |evs|
      ensures !reset(Before(next, s, evs, j), evs[j])
    {
      if j < |pre| {
        BeforePrefix(next, s, evs, j);
        assert !reset(Before(next, s, pre, j), pre[j]);
      }
    }
  }

  /** An event that does not reset the flag keeps whether the trace ever reset it. */
  lemma QuietNever<S, E>(next: (S, E) -> S, reset: (S, E) -> bool, s: S, evs: seq<E>)
    requires |evs| > 0
    requires !reset(Before(next, s, evs, |evs| - 1), evs[|evs| - 1])
    ensures NeverReset(next, reset, s, evs) <==> NeverReset(next, reset, s, evs[..|evs| - 1])
  {
    SharedPrefix(next, s, evs);
  }

  /**
   A flag that one kind of event raises and another resets (raising winning
   when both apply) is up after a trace exactly when some event raised it and
   nothing reset it since, or it was up at the start and nothing ever reset it.
   */
  lemma {:induction false} Latch<S, E>(next: (S, E) -> S, flag: S -> bool, raise: (S, E) -> bool, reset: (S, E) -> bool, s: S, evs: seq<E>)
    requires forall t, e :: flag(next(t, e)) == (raise(t, e) || (flag(t) && !reset(t, e)))
    ensures flag(Run(next, s, evs))
            <==> RaisedSinceReset(next, raise, reset, s, evs) || (flag(s) && NeverReset(next, reset, s, evs))
    decreases |evs|
  {
    if |evs| > 0 {
      var n := |evs| - 1;
      var pre := evs[..n];
      var e := evs[n];
      Latch(next, flag, raise, reset, s, pre);
      var t := Before(next, s, evs, n);
      assert t == Run(next, s, pre);
      assert Run(next, s, evs) == next(t, e);
      if raise(t, e) {
        RaiseStep(next, raise, reset, s, evs);
      } else if reset(t, e) {
        ResetStep(next, raise, reset, s, evs);
      } else {
        if RaisedSinceReset(next, raise, reset, s, evs) {
          QuietRaisedBefore(next, raise, reset, s, evs);
        }
        if RaisedSinceReset(next, raise, reset, s, pre) {
          QuietRaisedAfter(next, raise, reset, s, evs);
        }
        QuietNever(next, reset, s, evs);
      }
    }
  }
}

=== FILE: wrappers.dfy ===
/** Optional values: the model's rendering of JavaScript's `null` / `undefined`. */
module Wrappers {

  datatype Option<+T> = None | Some(value: T)
}
